=== FILE: README.md ===
# Staff schedule calendar — a verified model

This project models the logic behind a staff-scheduling calendar. The calendar
component turns a schedule into calendar events. A schedule has a start and
end date, shifts, staff members with off-days and pair ranges, and assignments.
The component:

- projects one event per assignment, coloured by the assignment's shift;
- flags an event `highlight` once its move has been confirmed;
- flags an event `invalid-date` when its UTC start day lies outside the
  schedule window;
- narrows the events to the selected staff member;
- marks that member's off-days and pair ranges on the day cells.

The project also models the reducer of the schedule store, which handles
fetching a schedule and confirming or rejecting a drag, and the two avatar
helpers of the profile card: the initials and the colour.

Modules, one per concern:

- `CivilDate` — proleptic Gregorian dates, with a day number; `NextDay` is the
  one-day step the date loops take.
- `DateFormat` — the three text layouts (`YYYY-MM-DD`, `DD-MM-YYYY`,
  `DD.MM.YYYY`) as strict parsers and formatters, with their round trips.
- `Collections`, `Text` — `find`, `findIndex`, `filter`, `map`, `includes`,
  and ASCII case mapping.
- `ScheduleModel` — the schedule record.
- `CalendarDates` — `validDates` and `getDatesBetween`, as loops proved
  against day-list functions.
- `CalendarEvents` — `generateAllEvents`, its colour table and the id lookups.
- `CalendarStaff` — `generateStaffBasedCalendar` and the day-cell classes of
  `dayCellContent`.
- `CalendarState` — the component state as a class, whose methods are the
  handlers and effects that write it. The module also holds the example-event
  merge, the initial date, the staff search and the prev/next thresholds.
- `ScheduleStore` — `initialState` and the reducer.
- `Profile` — `getInitials` and `getAvatarColor`.

The store starts from `InitialState`: not loading, no errors, and an empty
schedule (src/store/schedule/index.ts:17-21).

An event's colour class is `classes[k] || "bg-one"`, where k is the
position of the event's shift (src/components/Calendar/index.tsx:177-179,
198). No modulo is taken, so a shift at position 40 or later gets `bg-one`
(`CalendarEvents.ColorOfKnownShift`).

## Model

| member | source | states |
|---|---|---|
| CivilDate.NextDayNumber | src/components/Calendar/index.tsx:153 | one `add(1, "day")` step advances the day number by exactly one, across month and year ends |
| CivilDate.DaysFromNumber | src/components/Calendar/index.tsx:163-168 | k steps of `setDate(getDate() + 1)` advance the day number by exactly k |
| CivilDate.DayNumberOrder | src/components/Calendar/index.tsx:148-150 | comparing day numbers (`isBefore`/`isSame`) is the calendar's year-month-day order, both directions |
| CivilDate.DayNumberInjective | src/components/Calendar/index.tsx:148-150 | two valid dates with the same day number are the same date |
| CivilDate.ReachedByWalk | src/components/Calendar/index.tsx:147-154 | every date at or after the start is reached by the day-by-day walk |
| CivilDate.WalkReaches | src/components/Calendar/index.tsx:147-154 | walking k days from a date lands on the date whose day number is k higher |
| CivilDate.DaysBeforeYearClosedForm | src/components/Calendar/index.tsx:153 | the year offset summed year by year agrees with the Gregorian closed form 365y + ⌈y/4⌉ − ⌈y/100⌉ + ⌈y/400⌉ |
| CivilDate.DaysInMonth | src/components/Calendar/index.tsx:167 | a month has 28 to 31 days, and 29 exactly for February of a leap year |
| DateFormat.IsoRoundTrip | src/components/Calendar/index.tsx:152 | parsing a date formatted as `YYYY-MM-DD` gives the date back |
| DateFormat.DmyRoundTrip | src/components/Calendar/index.tsx:161-166 | parsing a date formatted as `DD.MM.YYYY` or `DD-MM-YYYY` gives the date back |
| DateFormat.FormatInjective | src/components/Calendar/index.tsx:182 | distinct dates have distinct texts in every layout, and no date's text is "Invalid Date" |
| DateFormat.DashToDotOfFormatted | src/components/Calendar/index.tsx:228 | re-reading a `DD-MM-YYYY` date and writing it as `DD.MM.YYYY` gives the same date in the dotted layout |
| Collections.FindIndex | src/components/Calendar/index.tsx:177-179 | `findIndex` gives the first index whose element matches, and -1 exactly when none matches |
| Collections.Find | src/components/Calendar/index.tsx:131-141 | `find` gives the first matching element, and nothing exactly when none matches |
| Collections.Filter | src/components/Calendar/index.tsx:214-216 | `filter` keeps exactly the matching elements, and keeps only elements of the list |
| Collections.FilterMember | src/components/Calendar/index.tsx:214-216 | an element survives `filter` exactly when it is in the list and matches |
| Collections.FilterConcat | src/components/Calendar/index.tsx:227-230 | filtering a concatenation is concatenating the filtered parts: order is kept |
| Collections.Map | src/components/Calendar/index.tsx:176-203 | entry i of the result is f applied to entry i of the list, and the length is kept |
| Collections.Tabulate | src/components/Calendar/index.tsx:147-156 | a list of n entries whose entry i is the value at i |
| Text.Upper | src/components/Profile/index.tsx:49 | `toUpperCase` maps each ASCII lower-case letter to its capital and keeps every other character |
| Text.Lower | src/components/Calendar/index.tsx:463 | `toLowerCase` maps each ASCII capital to its lower-case letter and keeps every other character |
| ScheduleStore.Reduce | src/store/schedule/index.ts:23-93 | the reducer: only the two success handlers change the schedule, loading is set exactly by a move request (or kept by an unhandled action), and an unhandled action keeps the errors; the handler lemmas below give each next state whole |
| ScheduleStore.InitialStateIsIdle | src/store/schedule/index.ts:17-21 | the store starts not loading, with no errors and no assignments |
| ScheduleStore.OtherActionKeepsState | src/store/schedule/index.ts:93 | an action without a handler leaves the state unchanged |
| ScheduleStore.FetchSuccessReplacesSchedule | src/store/schedule/index.ts:24-32 | a successful fetch stores the payload and clears loading and errors |
| ScheduleStore.FetchFailedKeepsSchedule | src/store/schedule/index.ts:34-41 | a failed fetch records the errors, clears loading and keeps the schedule |
| ScheduleStore.UpdateRequestKeepsSchedule | src/store/schedule/index.ts:43-47 | a move request sets loading, clears errors and keeps the schedule |
| ScheduleStore.MoveAssignments | src/store/schedule/index.ts:61-73 | the length is kept; assignment i is patched when its id is the event's, and kept as it was otherwise |
| ScheduleStore.UpdateSuccessPatchesOnlyTheMovedAssignment | src/store/schedule/index.ts:59-80 | a confirmed move patches start, end and `isUpdated` of exactly the assignments with the event's id, keeping their other fields. It keeps the other assignments, their order and number, the non-assignment fields, and a schedule without assignments. It clears loading and errors |
| ScheduleStore.UpdateSuccessIdempotent | src/store/schedule/index.ts:62-72 | confirming the same move twice gives the same state as confirming it once |
| ScheduleStore.LastConfirmationWins | src/store/schedule/index.ts:62-72 | after two confirmations for one assignment, the state is what the later one alone gives |
| ScheduleStore.UpdateFailedKeepsSchedule | src/store/schedule/index.ts:83-90 | a rejected move records the errors, clears loading and keeps the schedule |
| ScheduleStore.RejectedDragLeavesSchedule | src/store/schedule/index.ts:43-47 | a move requested and then rejected leaves the schedule exactly as before: no rollback is needed |
| ScheduleStore.ConfirmedDragCommits | src/store/schedule/index.ts:43-80 | a move requested and then confirmed commits the patched schedule, with the store idle and without errors |
| CalendarDates.ValidDates | src/components/Calendar/index.tsx:143-157 | the `validDates` loop returns exactly the window's day list (`ScheduleDays`) |
| CalendarDates.GetDatesBetween | src/components/Calendar/index.tsx:159-171 | the `getDatesBetween` loop returns exactly the day list between the two dotted dates (`DaysBetween`) |
| CalendarDates.DatePart | src/components/Calendar/index.tsx:181 | the date part of an instant is the whole text before its first `T`: a prefix with no `T` that ends at the text's end or at a `T` |
| CalendarDates.Span | src/components/Calendar/index.tsx:148-150 | the walk visits no day when the end is before the start, and otherwise end − start + 1 days |
| CalendarDates.ScheduleDaysMissingBound | src/components/Calendar/index.tsx:145 | `validDates` is empty when either bound is missing |
| CalendarDates.ScheduleDaysShape | src/components/Calendar/index.tsx:143-157 | with readable bounds, `validDates` has end − start + 1 entries (0 when start > end). It begins with the start day, and entry i reads back as the day i days after the start |
| CalendarDates.ScheduleDaysConsecutive | src/components/Calendar/index.tsx:147-154 | each entry of `validDates` is the day after the previous entry |
| CalendarDates.ScheduleDaysMembership | src/components/Calendar/index.tsx:148-152 | a day is listed by `validDates` exactly when it lies in the window, bounds included |
| CalendarDates.DaysBetweenSameDay | src/components/Calendar/index.tsx:159-171 | the days between a date and itself are just that date, in `DD-MM-YYYY` |
| CalendarDates.DaysBetweenUnreadable | src/components/Calendar/index.tsx:161-165 | an unreadable bound gives no days |
| CalendarDates.DaysBetweenShape | src/components/Calendar/index.tsx:159-171 | the list is empty exactly when the end is before the start. Otherwise it has end − start + 1 entries, and entry i reads back as the day i days after the start |
| CalendarDates.DaysBetweenMembership | src/components/Calendar/index.tsx:165-166 | a day is listed exactly when it lies between the two dates, both included |
| CalendarDates.DayTextsConsecutive | src/components/Calendar/index.tsx:165-168 | consecutive entries of a day list are consecutive calendar days |
| CalendarDates.DayTextsAll | src/components/Calendar/index.tsx:147-156 | every entry of a day list reads back as the date i days after the start |
| CalendarDates.InvalidDateNotInDayTexts | src/components/Calendar/index.tsx:182 | no day list contains "Invalid Date" |
| CalendarEvents.GetShiftById | src/components/Calendar/index.tsx:131-133 | the first shift with the id, or nothing exactly when no shift has it |
| CalendarEvents.GetAssignmentById | src/components/Calendar/index.tsx:135-137 | the first assignment with the id; nothing when the list is absent or has no such assignment |
| CalendarEvents.GetStaffById | src/components/Calendar/index.tsx:139-141 | the first staff member with the id, or nothing exactly when nobody has it |
| CalendarEvents.ColorClass | src/components/Calendar/index.tsx:39-80 | the colour of an event is always one of the forty classes |
| CalendarEvents.ColorOfKnownShift | src/components/Calendar/index.tsx:177-179 | the shift first with the id at position k gives `classes[k]` for k < 40, and `bg-one` for k ≥ 40: there is no modulo |
| CalendarEvents.ColorOfUnknownShift | src/components/Calendar/index.tsx:198 | an assignment whose shift is unknown gets `bg-one` |
| CalendarEvents.EventDate | src/components/Calendar/index.tsx:181 | the event date is the `YYYY-MM-DD` text of the start's UTC day, or "Invalid Date" when the start cannot be read |
| CalendarEvents.EventDateReadsBack | src/components/Calendar/index.tsx:181 | the event's date reads back as the UTC day of its start, and is "Invalid Date" exactly when the start cannot be read |
| CalendarEvents.EventOf | src/components/Calendar/index.tsx:177-201 | the event object built for one assignment; its fields are given by `AllEventsFields` and its class flags by `EventOfFlags` and `OutsideWindowIff` |
| CalendarEvents.AllEvents | src/components/Calendar/index.tsx:176 | one event per assignment: none is dropped, invalid ones included |
| CalendarEvents.ProjectAllEvents | src/components/Calendar/index.tsx:173-207 | the `generateAllEvents` loop returns the projection of every assignment in order (`AllEvents`) |
| CalendarEvents.ProjectEach | src/components/Calendar/index.tsx:176-203 | the loop body applied to each assignment in turn yields their projections in order |
| CalendarEvents.AllEventsAt | src/components/Calendar/index.tsx:176-203 | event i is the projection of assignment i |
| CalendarEvents.AllEventsFields | src/components/Calendar/index.tsx:187-197 | event i carries assignment i's id, staff, shift, and start and end instants |
| CalendarEvents.ClassNameFlags | src/components/Calendar/index.tsx:198-200 | the class list starts with `event <colour> `, ends in `invalid-date` exactly when flagged invalid, and shows `highlight` exactly when flagged highlighted |
| CalendarEvents.EventOfFlags | src/components/Calendar/index.tsx:198-200 | an event's class list carries its shift colour, `invalid-date` exactly when its day is outside the window, and `highlight` exactly when its assignment is highlighted |
| CalendarEvents.OutsideWindowIff | src/components/Calendar/index.tsx:181-182 | with a readable window, an event is `invalid-date` exactly when its start day is unreadable or not between the bounds |
| CalendarEvents.UnreadableStartIsOutside | src/components/Calendar/index.tsx:181-182 | an event whose start cannot be read is always `invalid-date` |
| CalendarEvents.NoWindowAllOutside | src/components/Calendar/index.tsx:145 | without a readable window every event is `invalid-date` |
| CalendarEvents.HighlightOfFirstWithId | src/components/Calendar/index.tsx:199 | an event is highlighted exactly when the first assignment with its id has `isUpdated` |
| CalendarEvents.HighlightOfUniqueId | src/components/Calendar/index.tsx:199 | with unique ids, an event is highlighted exactly when its own assignment has `isUpdated` |
| CalendarStaff.StaffEventsUnselected | src/components/Calendar/index.tsx:214-216 | with nobody selected (no id, or an empty one) no event is shown |
| CalendarStaff.StaffEventsMember | src/components/Calendar/index.tsx:214-216 | an event is shown exactly when it is among all events and belongs to the selected staff member |
| CalendarStaff.StaffEventsOrder | src/components/Calendar/index.tsx:214-216 | the shown events keep their relative order |
| CalendarStaff.HighlightsWithoutStaff | src/components/Calendar/index.tsx:218 | without a matching staff member no off-day is highlighted |
| CalendarStaff.BoundDmyReadsBack | src/components/Calendar/index.tsx:220-223 | a schedule bound written as `DD.MM.YYYY` reads back as the same day, and an unreadable bound stays unreadable |
| CalendarStaff.WindowDaysReformatted | src/components/Calendar/index.tsx:220-223 | the days between the two re-written bounds are the window's days |
| CalendarStaff.HighlightOffDays | src/components/Calendar/index.tsx:225-230 | the off-day loop keeps exactly the dates whose dotted form is an off-day (`OffDayHighlights`) |
| CalendarStaff.OffDayHighlightMember | src/components/Calendar/index.tsx:218-230 | a day is highlighted exactly when it lies in the window and its `DD.MM.YYYY` form is an off-day |
| CalendarStaff.OffDayHighlightsAreWindowDays | src/components/Calendar/index.tsx:225-230 | every highlighted entry is a window day whose dotted form is an off-day |
| CalendarStaff.RangeRecords | src/components/Calendar/index.tsx:240-246 | one record per day of the range, with colour k mod 20 and the paired staff member |
| CalendarStaff.PairRecords | src/components/Calendar/index.tsx:243 | every record's colour number is below 20 |
| CalendarStaff.CollectRangeRecords | src/components/Calendar/index.tsx:238-246 | the inner pair loop emits the records of one range (`RangeRecords`) |
| CalendarStaff.RecordDays | src/components/Calendar/index.tsx:240-246 | the day loop emits one record per day of the range, in order (`RangeRecords`) |
| CalendarStaff.CollectPairDates | src/components/Calendar/index.tsx:235-247 | the outer pair loop emits the records of every range, range by range (`PairDates`) |
| CalendarStaff.BuildStaffView | src/components/Calendar/index.tsx:212-251 | the staff events, off-day highlights and pair records computed by the loops are `StaffViewOf` |
| CalendarStaff.PairDatesCount | src/components/Calendar/index.tsx:237-247 | overlaps are all kept: the number of records is the sum of the range lengths |
| CalendarStaff.PairDatesMember | src/components/Calendar/index.tsx:237-247 | a record is emitted exactly when some range k contains its day, with colour k mod 20 and range k's paired staff member |
| CalendarStaff.PairRecordsCover | src/components/Calendar/index.tsx:237-247 | every day of every range is emitted with its range's colour and paired staff member |
| CalendarStaff.PairColorsRepeat | src/components/Calendar/index.tsx:243 | ranges twenty apart share a colour: a day in both is emitted twice with that colour, once per paired staff member |
| CalendarStaff.FindPairDate | src/components/Calendar/index.tsx:557 | the first pair record of the day, or nothing exactly when no record has that day |
| CalendarStaff.DayCellPairColor | src/components/Calendar/index.tsx:557-560 | a day cell uses the first record for its day, whose colour number is below 20 |
| CalendarStaff.DayCellDisabled | src/components/Calendar/index.tsx:553-564 | a day cell is `date-range-disabled` exactly when the day lies outside the window |
| CalendarStaff.DayCellClass | src/components/Calendar/index.tsx:552-566 | the class list of a day cell; `DayCellDisabled`, `DayCellHighlights` and `DayCellPairColor` give its three parts |
| CalendarStaff.CellClassMarks | src/components/Calendar/index.tsx:562-564 | a cell's class list ends with its single pair class, and has `highlighted-date-orange` exactly when asked for |
| CalendarStaff.DayCellHighlights | src/components/Calendar/index.tsx:554-564 | a day cell's last class is the pair class of the first record for its dashed date, and it has `highlighted-date-orange` exactly when that date is in `highlightedDates` |
| CalendarState.ExampleEvent | src/components/Calendar/index.tsx:255-267 | the example event has the fixed id, and belongs to the selected staff member when there is one and to the fixed default one otherwise |
| CalendarState.ReplaceOrAppend | src/components/Calendar/index.tsx:269-270 | the merged list ends with the new event; every earlier entry has another id and comes from the old list |
| CalendarState.ReplaceOrAppendSingle | src/components/Calendar/index.tsx:269-270 | after the merge, the new event is the only one with its id |
| CalendarState.ReplaceOrAppendKeepsOthers | src/components/Calendar/index.tsx:269-270 | every event with another id survives the merge |
| CalendarState.ReplaceOrAppendKeepsOrder | src/components/Calendar/index.tsx:269-270 | the merge keeps the other events in their relative order: the kept part of an earlier stretch comes before the kept part of a later one |
| CalendarState.ReplaceOrAppendIdempotent | src/components/Calendar/index.tsx:269-270 | merging the same event twice gives the same list as merging it once |
| CalendarState.EarliestIndex | src/components/Calendar/index.tsx:106-111 | the assignment a stable sort by start time puts first: its start is the least, and every earlier one starts strictly later |
| CalendarState.EarliestIsLeast | src/components/Calendar/index.tsx:106-111 | any assignment that starts least and first is the one chosen |
| CalendarState.FilteredStaff | src/components/Calendar/index.tsx:461-464 | the search result is a sub-list of the staff list; `FilteredStaffMember` says exactly who is in it |
| CalendarState.FilteredStaffMember | src/components/Calendar/index.tsx:461-464 | a staff member is listed exactly when the lower-cased term occurs in the lower-cased name |
| CalendarState.FilteredStaffEmptyTerm | src/components/Calendar/index.tsx:461-464 | an empty search lists everybody, in order |
| CalendarState.FilteredStaffIgnoresCase | src/components/Calendar/index.tsx:461-464 | the search ignores the case of the term |
| CalendarState.PrevDisabled | src/components/Calendar/index.tsx:542-547 | the previous button is disabled exactly when the view's first day is 2 to 35 days before the schedule's first day |
| CalendarState.PrevEnabledAtStart | src/components/Calendar/index.tsx:542-547 | a view starting on or after the day before the schedule leaves the previous button enabled |
| CalendarState.NextDisabled | src/components/Calendar/index.tsx:545-549 | the next button is disabled exactly when the view's exclusive end is 1 to 31 days after the schedule's last day |
| CalendarState.CalendarView.constructor | src/components/Calendar/index.tsx:86-93 | the component starts with empty lists, nobody selected, no initial date, not initialised and an empty search |
| CalendarState.CalendarView.GenerateAllEvents | src/components/Calendar/index.tsx:173-207 | stores and returns `AllEvents` of the schedule and changes nothing else |
| CalendarState.CalendarView.EnsureAllEvents | src/components/Calendar/index.tsx:212 | keeps the stored events when there are some, and projects them afresh otherwise |
| CalendarState.CalendarView.GenerateStaffBasedCalendar | src/components/Calendar/index.tsx:209-252 | does nothing when a schedule bound is missing. Otherwise it stores the staff events, off-day highlights and pair records of `StaffViewOf`, computed from the stored events (projected afresh when there are none) |
| CalendarState.CalendarView.OnScheduleChange | src/components/Calendar/index.tsx:278-281 | a new schedule selects its first staff member (nobody when it has none) and stores all its events |
| CalendarState.CalendarView.InitializeDate | src/components/Calendar/index.tsx:104-116 | the first time assignments are present, the initial date becomes the earliest start and the calendar is marked initialised; afterwards nothing changes |
| CalendarState.CalendarView.AddExampleEvent | src/components/Calendar/index.tsx:254-276 | both event lists get the example event merged in, replacing any event with its id |
| CalendarState.CalendarView.SelectStaff | src/components/Calendar/index.tsx:90 | selecting a staff member changes only the selected id |
| CalendarState.CalendarView.SetSearchTerm | src/components/Calendar/index.tsx:93 | typing in the search box changes only the search term |
| Profile.Split | src/components/Profile/index.tsx:46 | `split(" ")` gives at least one piece, and no piece contains a space |
| Profile.SplitJoin | src/components/Profile/index.tsx:46 | joining the pieces with the separator gives the name back |
| Profile.Take | src/components/Profile/index.tsx:50 | `substring(0, n)` is the prefix of length n, or the whole text when it is shorter than n |
| Profile.GetInitials | src/components/Profile/index.tsx:44-51 | the initials have at most two characters |
| Profile.InitialsAreWordStarts | src/components/Profile/index.tsx:45-50 | the initials are the upper-cased first characters of the words, at most two; leading and repeated spaces contribute nothing |
| Profile.GetAvatarColor | src/components/Profile/index.tsx:53-72 | the colour is always one of the ten palette entries, the one at the character-code sum mod 10 |
| Profile.CodeSum | src/components/Profile/index.tsx:67-69 | the `reduce` sum of character codes, a left fold; `CodeSumAppend`, `CodeSumSplit` and `CodeSumPermutation` characterise it |
| Profile.CodeSumAppend | src/components/Profile/index.tsx:67-69 | the code sum of a concatenation is the sum of the code sums |
| Profile.CodeSumSplit | src/components/Profile/index.tsx:67-69 | taking one character out of a name lowers its code sum by that character's code |
| Profile.CodeSumPermutation | src/components/Profile/index.tsx:67-69 | the code sum depends only on which characters occur how often |
| Profile.AvatarColorPermutation | src/components/Profile/index.tsx:67-71 | names made of the same characters in any order, equal names in particular, get the same colour |

## Left out

- Date-library parsing is modelled as strict parsers for the three layouts the
  component uses. An unreadable text gives nothing, which formats as
  "Invalid Date" and fails every comparison. The library's lenient parsing and
  its overflow normalisation (`31.02.2025` becoming a March date) are not
  modelled. Neither is the fact that the `DD.MM.YYYY` format needs a
  format-parsing plugin the component does not register.
- Time zones: an instant's UTC day is the date before its `T`, as for the
  `Z`-suffixed instants of the records. The local-time reading of the schedule
  bounds and of the day cells is taken to give the same calendar day. Offsets
  other than `Z` are not converted.
- `CalendarState.NextDisabled` takes the schedule's end bound at midnight of
  its day. The source's `diff(..., "days")` at
  src/components/Calendar/index.tsx:545 rounds the millisecond difference
  toward zero. So when the end bound, read in local time, carries a time of
  day, the disabled window moves by one day: a view ending the day after the
  last schedule day leaves the button enabled, and one ending 32 days after
  disables it. That shift is not modelled. `CalendarState.PrevDisabled` is
  not affected. Its thresholds lie at non-positive whole-day differences,
  where subtracting a fraction of a day and rounding toward zero gives the
  same whole-day difference back.
- `CalendarState.EarliestIndex`: the start instant is read as a timestamp by a
  parameter `timeOf`, because instant parsing belongs to the date library. A
  sort with an unreadable (NaN) timestamp, whose order the comparator leaves
  unspecified, is not modelled.
- Strings are sequences of characters, not of UTF-16 code units. `charCodeAt`
  is the character's code point, and `n[0]` is the first character.
- `Text.Upper`, `Text.Lower`: case mapping is ASCII only. Unicode case
  mapping, including mappings that change a string's length, is left to the
  library.
- React scheduling: the effects are methods the caller invokes in order, not
  re-run on dependency changes. Batched state updates and render loops are not
  modelled. For example, with no assignments `generateStaffBasedCalendar`
  stores a fresh empty event list, which re-triggers its own effect.
- `CalendarEvents.ProjectAllEvents` reads `validDates()` once, not once per
  assignment. The list depends only on the schedule, which the loop does not
  change, so every assignment sees the same list.
- `CalendarState.CalendarView.AddExampleEvent` models both functional updates
  on the state it reads. It does not model the `gotoDate` call on the widget.
- The `gotoDate` effect, the `datesSet` button lookup and mutation, the view
  month's initial-date update, the JSX markup, the event popup
  (`handleEventClick`) and `handleEventDrop`, which only dispatches and calls
  the widget's `revert`: widget and DOM calls, not logic.
- The constant `duration: "01:00"` of the projected events is not kept.
- The saga, the action creators and the application wiring (src/store/schedule/saga.ts,
  src/store/schedule/actions.ts, src/App.tsx): effect plumbing; the state
  transitions they drive are the reducer's.
- `formatRoleName` and the profile's session fallbacks and animation timer:
  they depend on `JSON.parse`, the session store and timers.
- A missing `shifts` or `staffs` list is modelled as an empty one, which every
  use in the core treats alike. A missing string field is modelled as the
  empty string. The source does not always treat it alike, and the model does
  not capture these three cases:
  - A missing `shiftStart`: `dayjs.utc(undefined)` at
    src/components/Calendar/index.tsx:181 is the current instant, so the
    source dates such an event today. The model's `CalendarEvents.EventDate`
    of `""` is "Invalid Date", so the event is always marked invalid-date.
  - A missing staff `name`: `toLowerCase` at
    src/components/Calendar/index.tsx:463 throws. `CalendarState.FilteredStaff`
    matches it as `""` instead.
  - Schedule bounds that are missing or unreadable when `datesSet` runs
    (src/components/Calendar/index.tsx:542-549). Before the schedule loads,
    `dayjs(undefined)` measures the view from today. An unreadable bound makes
    both differences NaN, which leaves both buttons enabled.
    `CalendarState.PrevDisabled` and `CalendarState.NextDisabled` take two
    valid dates and cover neither path.
- `CalendarDates.ValidDates` compares the schedule bounds at day precision.
  The source's loop test at src/components/Calendar/index.tsx:148-150 compares
  full timestamps with `isBefore`/`isSame`. When the start bound carries a later
  time of day than the end bound (`2025-10-01T12:00:00` to
  `2025-10-31T08:00:00`), the source stops one day earlier than the model. The
  model treats the bounds as calendar dates. On such input the source's window
  and its off-day window (`CalendarStaff.WindowDaysReformatted`) disagree,
  while the model proves they agree.

=== FILE: calendar_dates.dfy ===
/**
 * Date-range enumeration of the calendar: the days of the schedule window
 * (`validDates`, `YYYY-MM-DD`) and the days between two `DD.MM.YYYY` dates
 * (`getDatesBetween`, `DD-MM-YYYY`). Both walk one day at a time from the
 * start while the current day is not after the end.
 */
module CalendarDates {
  import opened Wrappers
  import opened CivilDate
  import opened DateFormat
  import opened ScheduleModel
  import opened Collections

  /** The calendar-date part of an ISO-8601 date or instant: everything before the first `T`. */
  function DatePart(s: string): (r: string)
    ensures |r| <= |s| && r == s[..|r|] && 'T' !in r
    ensures |r| == |s| || s[|r|] == 'T'
  {
    if |s| == 0 || s[0] == 'T' then "" else [s[0]] + DatePart(s[1..])
  }

  /** An ISO-8601 date or instant read as a calendar day (day precision, no time-zone shift). */
  function ParseDay(s: string): (r: Option<Date>)
    ensures r.Some? ==> ValidDate(r.value)
  {
    ParseIso(DatePart(s))
  }

  /** Number of days from a to b inclusive; none when b is before a. */
  function Span(a: Date, b: Date): (n: nat)
    requires ValidDate(a) && ValidDate(b)
    ensures n == 0 <==> DayNumber(b) < DayNumber(a)
    ensures n > 0 ==> DayNumber(b) == DayNumber(a) + n - 1
  {
    if DayNumber(b) < DayNumber(a) then 0 else DayNumber(b) - DayNumber(a) + 1
  }

  /** The text of the day i days after a. */
  function DayText(a: Date, layout: Layout): nat -> string
    requires ValidDate(a)
  {
    (i: nat) => Format(DaysFrom(a, i), layout)
  }

  /** The texts of the n consecutive days starting at a. */
  function DayTexts(a: Date, n: nat, layout: Layout): (r: seq<string>)
    requires ValidDate(a)
    ensures |r| == n
  {
    Tabulate(n, DayText(a, layout))
  }

  /** What `validDates` returns: the window's days as `YYYY-MM-DD`, or nothing when a bound is missing or unreadable. */
  function ScheduleDays(s: Schedule): seq<string> {
    if s.scheduleStartDate == "" || s.scheduleEndDate == "" then []
    else
      match (ParseDay(s.scheduleStartDate), ParseDay(s.scheduleEndDate))
      case (Some(a), Some(b)) => DayTexts(a, Span(a, b), YearFirst)
      case _ => []
  }

  /** What `getDatesBetween` returns: the days between two `DD.MM.YYYY` dates as `DD-MM-YYYY`. */
  function DaysBetween(startDate: string, endDate: string): seq<string> {
    match (ParseDmy(startDate, '.'), ParseDmy(endDate, '.'))
    case (Some(a), Some(b)) => DayTexts(a, Span(a, b), DayFirst('-'))
    case _ => []
  }

  /** `validDates`. An unreadable bound behaves as the library's invalid date: no comparison holds. */
  method ValidDates(s: Schedule) returns (dates: seq<string>)
    ensures dates == ScheduleDays(s)
  {
    dates := [];
    if s.scheduleStartDate == "" || s.scheduleEndDate == "" {
      return;
    }
    var start, end := ParseDay(s.scheduleStartDate), ParseDay(s.scheduleEndDate);
    if start.None? || end.None? {
      return;
    }
    var first, last := start.value, end.value;
    assert ScheduleDays(s) == DayTexts(first, Span(first, last), YearFirst);
    var currentDate := first;
    while DayNumber(currentDate) < DayNumber(last) || DayNumber(currentDate) == DayNumber(last)
      invariant ValidDate(currentDate)
      invariant currentDate == DaysFrom(first, |dates|)
      invariant DayNumber(currentDate) == DayNumber(first) + |dates|
      invariant |dates| <= Span(first, last)
      invariant dates == DayTexts(first, |dates|, YearFirst)
      decreases DayNumber(last) - DayNumber(currentDate)
    {
      assert DayTexts(first, |dates| + 1, YearFirst) == dates + [FormatIso(currentDate)];
      dates := dates + [FormatIso(currentDate)];
      NextDayNumber(currentDate);
      currentDate := NextDay(currentDate);
    }
  }

  /** `getDatesBetween`. */
  method GetDatesBetween(startDate: string, endDate: string) returns (dates: seq<string>)
    ensures dates == DaysBetween(startDate, endDate)
  {
    dates := [];
    var start, end := ParseDmy(startDate, '.'), ParseDmy(endDate, '.');
    if start.None? || end.None? {
      return;
    }
    var first, last := start.value, end.value;
    assert DaysBetween(startDate, endDate) == DayTexts(first, Span(first, last), DayFirst('-'));
    var current := first;
    while DayNumber(current) <= DayNumber(last)
      invariant ValidDate(current)
      invariant current == DaysFrom(first, |dates|)
      invariant DayNumber(current) == DayNumber(first) + |dates|
      invariant |dates| <= Span(first, last)
      invariant dates == DayTexts(first, |dates|, DayFirst('-'))
      decreases DayNumber(last) - DayNumber(current)
    {
      assert DayTexts(first, |dates| + 1, DayFirst('-')) == dates + [FormatDmy(current, '-')];
      dates := dates + [FormatDmy(current, '-')];
      NextDayNumber(current);
      current := NextDay(current);
    }
  }

  lemma DayTextsIndex(a: Date, n: nat, layout: Layout, i: nat)
    requires ValidDate(a) && i < n
    ensures DayTexts(a, n, layout)[i] == Format(DaysFrom(a, i), layout)
  {
  }

  /** Entry i of a day list reads back as the date i days after the start. */
  lemma DayTextsAt(a: Date, n: nat, layout: Layout, i: nat)
    requires ValidDate(a) && i < n
    ensures Parse(DayTexts(a, n, layout)[i], layout) == Some(DaysFrom(a, i))
    ensures DayNumber(DaysFrom(a, i)) == DayNumber(a) + i
  {
    DayTextsIndex(a, n, layout, i);
    RoundTrip(DaysFrom(a, i), layout);
    DaysFromNumber(a, i);
  }

  /** Every entry of a day list reads back as its date, i days after the start. */
  lemma DayTextsAll(a: Date, n: nat, layout: Layout)
    requires ValidDate(a)
    ensures forall i :: 0 <= i < n ==>
              Parse(DayTexts(a, n, layout)[i], layout) == Some(DaysFrom(a, i)) &&
              DayNumber(DaysFrom(a, i)) == DayNumber(a) + i
  {
    forall i | 0 <= i < n
      ensures Parse(DayTexts(a, n, layout)[i], layout) == Some(DaysFrom(a, i))
      ensures DayNumber(DaysFrom(a, i)) == DayNumber(a) + i
    {
      DayTextsAt(a, n, layout, i);
    }
  }

  lemma DayTextsMember(a: Date, n: nat, layout: Layout, d: Date)
    requires ValidDate(a) && ValidDate(d)
    requires Format(d, layout) in DayTexts(a, n, layout)
    ensures DayNumber(a) <= DayNumber(d) < DayNumber(a) + n
  {
    var r := DayTexts(a, n, layout);
    var i :| 0 <= i < n && r[i] == Format(d, layout);
    DayTextsIndex(a, n, layout, i);
    FormatInjective(DaysFrom(a, i), d, layout);
    DaysFromNumber(a, i);
  }

  lemma DayTextsCover(a: Date, n: nat, layout: Layout, d: Date)
    requires ValidDate(a) && ValidDate(d)
    requires DayNumber(a) <= DayNumber(d) < DayNumber(a) + n
    ensures Format(d, layout) in DayTexts(a, n, layout)
  {
    var i: nat := DayNumber(d) - DayNumber(a);
    WalkReaches(a, d, i);
    var r := DayTexts(a, n, layout);
    assert r[i] == Format(d, layout);
  }

  lemma DayTextsConsecutive(a: Date, n: nat, layout: Layout, i: nat)
    requires ValidDate(a) && i + 1 < n
    ensures Parse(DayTexts(a, n, layout)[i], layout).Some?
    ensures Parse(DayTexts(a, n, layout)[i + 1], layout) == Some(NextDay(Parse(DayTexts(a, n, layout)[i], layout).value))
  {
    DayTextsAt(a, n, layout, i);
    DayTextsAt(a, n, layout, i + 1);
  }

  /** A date's text is in the list of n days from a exactly when its day number is in [a, a + n). */
  lemma DayTextsMembership(a: Date, n: nat, layout: Layout, d: Date)
    requires ValidDate(a) && ValidDate(d)
    ensures Format(d, layout) in DayTexts(a, n, layout) <==> DayNumber(a) <= DayNumber(d) < DayNumber(a) + n
  {
    if Format(d, layout) in DayTexts(a, n, layout) {
      DayTextsMember(a, n, layout, d);
    }
    if DayNumber(a) <= DayNumber(d) < DayNumber(a) + n {
      DayTextsCover(a, n, layout, d);
    }
  }

  /** No list of day texts contains the library's "Invalid Date". */
  lemma InvalidDateNotInDayTexts(a: Date, n: nat, layout: Layout)
    requires ValidDate(a)
    ensures InvalidDate !in DayTexts(a, n, layout)
  {
    forall i | 0 <= i < n
      ensures DayTexts(a, n, layout)[i] != InvalidDate
    {
      DayTextsIndex(a, n, layout, i);
      FormatInjective(DaysFrom(a, i), DaysFrom(a, i), layout);
    }
  }

  /** `validDates` is empty when either bound is missing. */
  lemma ScheduleDaysMissingBound(s: Schedule)
    requires s.scheduleStartDate == "" || s.scheduleEndDate == ""
    ensures ScheduleDays(s) == []
  {
  }

  /**
   * With both bounds readable, `validDates` lists end - start + 1 days (none
   * when start is after end), starting with the start day, entry i being the
   * day i days after the start.
   */
  lemma ScheduleDaysShape(s: Schedule, a: Date, b: Date)
    requires s.scheduleStartDate != "" && s.scheduleEndDate != ""
    requires ParseDay(s.scheduleStartDate) == Some(a) && ParseDay(s.scheduleEndDate) == Some(b)
    ensures |ScheduleDays(s)| == if DayNumber(b) < DayNumber(a) then 0 else DayNumber(b) - DayNumber(a) + 1
    ensures |ScheduleDays(s)| > 0 ==> ScheduleDays(s)[0] == FormatIso(a)
    ensures forall i :: 0 <= i < |ScheduleDays(s)| ==>
              ParseIso(ScheduleDays(s)[i]) == Some(DaysFrom(a, i)) && DayNumber(DaysFrom(a, i)) == DayNumber(a) + i
  {
    var n := Span(a, b);
    assert ScheduleDays(s) == DayTexts(a, n, YearFirst);
    DayTextsAll(a, n, YearFirst);
    if n > 0 {
      DayTextsIndex(a, n, YearFirst, 0);
    }
  }

  /** Consecutive entries of `validDates` are consecutive calendar days, so the list is strictly increasing. */
  lemma ScheduleDaysConsecutive(s: Schedule, a: Date, b: Date, i: nat)
    requires s.scheduleStartDate != "" && s.scheduleEndDate != ""
    requires ParseDay(s.scheduleStartDate) == Some(a) && ParseDay(s.scheduleEndDate) == Some(b)
    requires i + 1 < |ScheduleDays(s)|
    ensures ParseIso(ScheduleDays(s)[i]).Some?
    ensures ParseIso(ScheduleDays(s)[i + 1]) == Some(NextDay(ParseIso(ScheduleDays(s)[i]).value))
  {
    DayTextsConsecutive(a, Span(a, b), YearFirst, i);
  }

  /** A day is listed by `validDates` exactly when it lies in the window, bounds included. */
  lemma ScheduleDaysMembership(s: Schedule, a: Date, b: Date, d: Date)
    requires s.scheduleStartDate != "" && s.scheduleEndDate != ""
    requires ParseDay(s.scheduleStartDate) == Some(a) && ParseDay(s.scheduleEndDate) == Some(b)
    requires ValidDate(d)
    ensures FormatIso(d) in ScheduleDays(s) <==> DayNumber(a) <= DayNumber(d) <= DayNumber(b)
  {
    DayTextsMembership(a, Span(a, b), YearFirst, d);
  }

  /** `getDatesBetween` of a day and itself is just that day, re-punctuated. */
  lemma DaysBetweenSameDay(d: Date)
    requires ValidDate(d)
    ensures DaysBetween(FormatDmy(d, '.'), FormatDmy(d, '.')) == [FormatDmy(d, '-')]
  {
    DmyRoundTrip(d, '.');
  }

  /** `getDatesBetween` is empty when a bound is unreadable. */
  lemma DaysBetweenUnreadable(startDate: string, endDate: string)
    requires ParseDmy(startDate, '.').None? || ParseDmy(endDate, '.').None?
    ensures DaysBetween(startDate, endDate) == []
  {
  }

  /**
   * With both bounds readable, `getDatesBetween` is empty exactly when the end
   * is before the start; otherwise it lists end - start + 1 days, entry i
   * being the day i days after the start, as `DD-MM-YYYY`.
   */
  lemma DaysBetweenShape(startDate: string, endDate: string, a: Date, b: Date)
    requires ParseDmy(startDate, '.') == Some(a) && ParseDmy(endDate, '.') == Some(b)
    ensures DaysBetween(startDate, endDate) == [] <==> DayNumber(b) < DayNumber(a)
    ensures |DaysBetween(startDate, endDate)| == if DayNumber(b) < DayNumber(a) then 0 else DayNumber(b) - DayNumber(a) + 1
    ensures forall i :: 0 <= i < |DaysBetween(startDate, endDate)| ==>
              ParseDmy(DaysBetween(startDate, endDate)[i], '-') == Some(DaysFrom(a, i))
              && DayNumber(DaysFrom(a, i)) == DayNumber(a) + i
  {
    var n := Span(a, b);
    var r := DaysBetween(startDate, endDate);
    assert r == DayTexts(a, n, DayFirst('-'));
    forall i | 0 <= i < n
      ensures ParseDmy(r[i], '-') == Some(DaysFrom(a, i)) && DayNumber(DaysFrom(a, i)) == DayNumber(a) + i
    {
      DayTextsAt(a, n, DayFirst('-'), i);
    }
  }

  /** A day is listed by `getDatesBetween` exactly when it lies between the two dates, both included. */
  lemma DaysBetweenMembership(startDate: string, endDate: string, a: Date, b: Date, d: Date)
    requires ParseDmy(startDate, '.') == Some(a) && ParseDmy(endDate, '.') == Some(b)
    requires ValidDate(d)
    ensures FormatDmy(d, '-') in DaysBetween(startDate, endDate) <==> DayNumber(a) <= DayNumber(d) <= DayNumber(b)
  {
    DayTextsMembership(a, Span(a, b), DayFirst('-'), d);
  }
}

=== FILE: calendar_events.dfy ===
/**
 * Event projection of the calendar (`generateAllEvents`): one calendar event
 * per assignment, coloured by the position of its shift in the schedule's
 * shift list, flagged `highlight` when the assignment was moved and
 * confirmed, and flagged `invalid-date` when its UTC start day lies outside
 * the schedule window. Also the three id lookups the component uses.
 */
module CalendarEvents {
  import opened Wrappers
  import opened CivilDate
  import opened DateFormat
  import opened ScheduleModel
  import opened Collections
  import opened CalendarDates

  /** An event as handed to the calendar widget (the constant `duration` is not kept). */
  datatype Event = Event(
    id: string,
    title: Option<string>,
    date: string,
    staffId: string,
    shiftId: string,
    start: string,
    end: string,
    shiftStart: string,
    shiftEnd: string,
    className: string)

  /** The colour classes, one per shift position. */
  const Classes: seq<string> := [
    "bg-one", "bg-two", "bg-three", "bg-four", "bg-five",
    "bg-six", "bg-seven", "bg-eight", "bg-nine", "bg-ten",
    "bg-eleven", "bg-twelve", "bg-thirteen", "bg-fourteen", "bg-fifteen",
    "bg-sixteen", "bg-seventeen", "bg-eighteen", "bg-nineteen", "bg-twenty",
    "bg-twenty-one", "bg-twenty-two", "bg-twenty-three", "bg-twenty-four", "bg-twenty-five",
    "bg-twenty-six", "bg-twenty-seven", "bg-twenty-eight", "bg-twenty-nine", "bg-thirty",
    "bg-thirty-one", "bg-thirty-two", "bg-thirty-three", "bg-thirty-four", "bg-thirty-five",
    "bg-thirty-six", "bg-thirty-seven", "bg-thirty-eight", "bg-thirty-nine", "bg-forty"]

  /** `getShiftById`: the first shift with this id. */
  function GetShiftById(shifts: seq<Shift>, id: string): (r: Option<Shift>)
    ensures r.None? <==> forall j :: 0 <= j < |shifts| ==> shifts[j].id != id
    ensures r.Some? ==> exists k :: 0 <= k < |shifts| && shifts[k] == r.value && r.value.id == id &&
                                    forall j :: 0 <= j < k ==> shifts[j].id != id
  {
    Find(shifts, (shift: Shift) => id == shift.id)
  }

  /** `getStaffById`: the first staff member with this id. */
  function GetStaffById(staffs: seq<Staff>, id: string): (r: Option<Staff>)
    ensures r.None? <==> forall j :: 0 <= j < |staffs| ==> staffs[j].id != id
    ensures r.Some? ==> exists k :: 0 <= k < |staffs| && staffs[k] == r.value && r.value.id == id &&
                                    forall j :: 0 <= j < k ==> staffs[j].id != id
  {
    Find(staffs, (staff: Staff) => id == staff.id)
  }

  /** `getAssigmentById`: the first assignment with this id; nothing when the list is absent. */
  function GetAssignmentById(assignments: Option<seq<Assignment>>, id: string): (r: Option<Assignment>)
    ensures assignments.None? ==> r.None?
    ensures assignments.Some? ==>
              (r.None? <==> forall j :: 0 <= j < |assignments.value| ==> assignments.value[j].id != id)
    ensures r.Some? ==>
              assignments.Some? &&
              exists k :: 0 <= k < |assignments.value| && assignments.value[k] == r.value && r.value.id == id &&
                          forall j :: 0 <= j < k ==> assignments.value[j].id != id
  {
    match assignments
    case None => None
    case Some(xs) => Find(xs, (assign: Assignment) => id == assign.id)
  }

  /** Position of the assignment's shift in the shift list, or -1. */
  function ShiftPosition(shifts: seq<Shift>, shiftId: string): int {
    FindIndex(shifts, (shift: Shift) => shift.id == shiftId)
  }

  /** `classes[k] || "bg-one"`: an index outside the table yields nothing, which falls back to the first class. */
  function ColorClass(shifts: seq<Shift>, shiftId: string): (c: string)
    ensures c in Classes
  {
    var k := ShiftPosition(shifts, shiftId);
    if 0 <= k < |Classes| then Classes[k] else Classes[0]
  }

  /** The UTC calendar day of an instant as `YYYY-MM-DD`, or the library's "Invalid Date". */
  function EventDate(shiftStart: string): (r: string)
    ensures ParseDay(shiftStart).Some? ==> r == FormatIso(ParseDay(shiftStart).value)
    ensures ParseDay(shiftStart).None? ==> r == InvalidDate
  {
    match ParseDay(shiftStart)
    case Some(d) => FormatIso(d)
    case None => InvalidDate
  }

  /**
   * An event's date reads back as the UTC day of its start instant, and it is
   * "Invalid Date" exactly when that instant cannot be read.
   */
  lemma EventDateReadsBack(shiftStart: string)
    ensures ParseIso(EventDate(shiftStart)) == ParseDay(shiftStart)
    ensures EventDate(shiftStart) == InvalidDate <==> ParseDay(shiftStart).None?
  {
    match ParseDay(shiftStart)
    case Some(d) =>
      IsoRoundTrip(d);
      FormatInjective(d, d, YearFirst);
    case None =>
      assert !IsDigit(InvalidDate[0]);
      assert !AllDigits(InvalidDate[..|InvalidDate| - 6]);
  }

  /** The event's `highlight` flag: the first assignment carrying its id was moved and confirmed. */
  function Highlighted(s: Schedule, a: Assignment): bool {
    match GetAssignmentById(s.assignments, a.id)
    case Some(x) => x.isUpdated
    case None => false
  }

  /** The event's `invalid-date` flag: its day is not one of the window's days. */
  predicate OutsideWindow(days: seq<string>, a: Assignment) {
    EventDate(a.shiftStart) !in days
  }

  /** The event's class list: `event <colour> <highlight?> <invalid-date?>`, single-space separated. */
  function EventClassName(color: string, highlight: bool, invalid: bool): string {
    "event " + color + " " + (if highlight then "highlight" else "") + " " + (if invalid then "invalid-date" else "")
  }

  const InvalidMark: string := "invalid-date"
  const HighlightMark: string := "highlight "

  /** The class list ends with the `invalid-date` marker. */
  predicate MarkedInvalid(c: string) {
    |c| >= |InvalidMark| && c[|c| - |InvalidMark|..] == InvalidMark
  }

  /** With any `invalid-date` marker removed, the class list ends with the `highlight` marker. */
  predicate MarkedHighlight(c: string) {
    var body := if MarkedInvalid(c) then c[..|c| - |InvalidMark|] else c;
    |body| >= |HighlightMark| && body[|body| - |HighlightMark|..] == HighlightMark
  }

  /** The event projected from one assignment, given the window's days (`validDates()`). */
  function EventOf(s: Schedule, a: Assignment, days: seq<string>): Event {
    Event(
      a.id,
      match GetShiftById(s.shifts, a.shiftId) case Some(shift) => Some(shift.name) case None => None,
      EventDate(a.shiftStart),
      a.staffId,
      a.shiftId,
      a.shiftStart,
      a.shiftEnd,
      a.shiftStart,
      a.shiftEnd,
      EventClassName(ColorClass(s.shifts, a.shiftId), Highlighted(s, a), OutsideWindow(days, a)))
  }

  /** The projection of one assignment, for the schedule and the window's days. */
  function Projection(s: Schedule, days: seq<string>): Assignment -> Event {
    (a: Assignment) => EventOf(s, a, days)
  }

  /** What `generateAllEvents` returns: the projection of each assignment, in assignment order. */
  function AllEvents(s: Schedule): (r: seq<Event>)
    ensures |r| == |AssignmentsOf(s)|
  {
    Map(AssignmentsOf(s), Projection(s, ScheduleDays(s)))
  }

  /** Event i of `generateAllEvents` is the projection of assignment i. */
  lemma AllEventsAt(s: Schedule, i: nat)
    requires i < |AssignmentsOf(s)|
    ensures AllEvents(s)[i] == EventOf(s, AssignmentsOf(s)[i], ScheduleDays(s))
  {
  }

  /**
   * `generateAllEvents`. The component re-evaluates `validDates()` for every
   * assignment; it depends only on the schedule, so it is read once here.
   */
  method ProjectAllEvents(s: Schedule) returns (works: seq<Event>)
    ensures works == AllEvents(s)
  {
    var days := ValidDates(s);
    works := ProjectEach(s, AssignmentsOf(s), days);
  }

  /** The loop of `generateAllEvents`: one projected event per assignment, pushed in order. */
  method ProjectEach(s: Schedule, xs: seq<Assignment>, days: seq<string>) returns (works: seq<Event>)
    ensures works == Map(xs, Projection(s, days))
  {
    works := [];
    for i := 0 to |xs|
      invariant works == Map(xs[..i], Projection(s, days))
    {
      var work := EventOf(s, xs[i], days);
      assert xs[..i + 1][..i] == xs[..i];
      works := works + [work];
    }
    assert xs[..|xs|] == xs;
  }

  /**
   * One event per assignment, in assignment order, none dropped: event i
   * carries assignment i's id, staff, shift and start and end instants.
   */
  lemma AllEventsFields(s: Schedule, i: nat)
    requires i < |AssignmentsOf(s)|
    ensures var a := AssignmentsOf(s)[i];
            var e := AllEvents(s)[i];
            e.id == a.id && e.staffId == a.staffId && e.shiftId == a.shiftId &&
            e.start == a.shiftStart && e.end == a.shiftEnd &&
            e.shiftStart == a.shiftStart && e.shiftEnd == a.shiftEnd
  {
    AllEventsAt(s, i);
  }

  /** The colour class marks the first shift with the assignment's id, for the first forty positions. */
  lemma ColorOfKnownShift(shifts: seq<Shift>, shiftId: string, k: nat)
    requires k < |shifts| && shifts[k].id == shiftId
    requires forall j :: 0 <= j < k ==> shifts[j].id != shiftId
    ensures k < 40 ==> ColorClass(shifts, shiftId) == Classes[k]
    ensures k >= 40 ==> ColorClass(shifts, shiftId) == "bg-one"
  {
    FindIndexFirst(shifts, (shift: Shift) => shift.id == shiftId, k);
  }

  /** An assignment whose shift is unknown gets the first colour class. */
  lemma ColorOfUnknownShift(shifts: seq<Shift>, shiftId: string)
    requires forall j :: 0 <= j < |shifts| ==> shifts[j].id != shiftId
    ensures ColorClass(shifts, shiftId) == "bg-one"
  {
  }

  /** The markers at the end of a class list give back the two flags it was built from. */
  lemma ClassNameFlags(color: string, highlight: bool, invalid: bool)
    ensures MarkedInvalid(EventClassName(color, highlight, invalid)) <==> invalid
    ensures MarkedHighlight(EventClassName(color, highlight, invalid)) <==> highlight
    ensures EventClassName(color, highlight, invalid)[..|color| + 7] == "event " + color + " "
  {
    var h := if highlight then "highlight" else "";
    var head := "event " + color + " " + h + " ";
    var c := EventClassName(color, highlight, invalid);
    assert head[|head| - 1] == ' ';
    if invalid {
      assert c == head + InvalidMark;
      assert c[..|c| - |InvalidMark|] == head;
    } else {
      assert c == head;
      assert c[|c| - 1] == ' ' != InvalidMark[|InvalidMark| - 1];
    }
    if highlight {
      assert head == "event " + color + " " + HighlightMark;
    } else {
      assert head == "event " + color + "  ";
      assert head[|head| - 2] == ' ' != HighlightMark[|HighlightMark| - 2];
    }
    assert c == "event " + color + " " + (h + " " + (if invalid then InvalidMark else ""));
  }

  /** An assignment whose start cannot be read always falls outside the window. */
  lemma UnreadableStartIsOutside(s: Schedule, a: Assignment)
    requires ParseDay(a.shiftStart).None?
    ensures OutsideWindow(ScheduleDays(s), a)
  {
    if s.scheduleStartDate != "" && s.scheduleEndDate != "" {
      match (ParseDay(s.scheduleStartDate), ParseDay(s.scheduleEndDate))
      case (Some(lo), Some(hi)) => InvalidDateNotInDayTexts(lo, Span(lo, hi), YearFirst);
      case _ =>
    }
  }

  /** Without a readable window every event is flagged `invalid-date`. */
  lemma NoWindowAllOutside(s: Schedule, a: Assignment)
    requires s.scheduleStartDate == "" || s.scheduleEndDate == "" ||
             ParseDay(s.scheduleStartDate).None? || ParseDay(s.scheduleEndDate).None?
    ensures OutsideWindow(ScheduleDays(s), a)
  {
  }

  /** With a readable window, an event is flagged `invalid-date` exactly when its start day is unreadable or outside the window. */
  lemma OutsideWindowIff(s: Schedule, lo: Date, hi: Date, a: Assignment)
    requires s.scheduleStartDate != "" && s.scheduleEndDate != ""
    requires ParseDay(s.scheduleStartDate) == Some(lo) && ParseDay(s.scheduleEndDate) == Some(hi)
    ensures OutsideWindow(ScheduleDays(s), a) <==>
              ParseDay(a.shiftStart).None? ||
              !(DayNumber(lo) <= DayNumber(ParseDay(a.shiftStart).value) <= DayNumber(hi))
  {
    match ParseDay(a.shiftStart)
    case None => UnreadableStartIsOutside(s, a);
    case Some(d) => ScheduleDaysMembership(s, lo, hi, d);
  }

  /** The event of assignment i is highlighted exactly when the first assignment with its id has `isUpdated`. */
  lemma HighlightOfFirstWithId(s: Schedule, i: nat, k: nat)
    requires s.assignments.Some? && i < |s.assignments.value| && k < |s.assignments.value|
    requires s.assignments.value[k].id == s.assignments.value[i].id
    requires forall j :: 0 <= j < k ==> s.assignments.value[j].id != s.assignments.value[i].id
    ensures Highlighted(s, s.assignments.value[i]) <==> s.assignments.value[k].isUpdated
  {
    var xs := s.assignments.value;
    var r := GetAssignmentById(s.assignments, xs[i].id);
    var m :| 0 <= m < |xs| && xs[m] == r.value && r.value.id == xs[i].id &&
             forall j :: 0 <= j < m ==> xs[j].id != xs[i].id;
    assert m == k;
  }

  /** With unique ids, an event is highlighted exactly when its own assignment was moved and confirmed. */
  lemma HighlightOfUniqueId(s: Schedule, i: nat)
    requires s.assignments.Some? && i < |s.assignments.value|
    requires forall j :: 0 <= j < |s.assignments.value| && j != i ==> s.assignments.value[j].id != s.assignments.value[i].id
    ensures Highlighted(s, s.assignments.value[i]) <==> s.assignments.value[i].isUpdated
  {
    HighlightOfFirstWithId(s, i, i);
  }

  /** An event's class list carries its colour and exactly the flags of its assignment. */
  lemma EventOfFlags(s: Schedule, a: Assignment, days: seq<string>)
    ensures var c := EventOf(s, a, days).className;
            var color := ColorClass(s.shifts, a.shiftId);
            (MarkedInvalid(c) <==> OutsideWindow(days, a)) &&
            (MarkedHighlight(c) <==> Highlighted(s, a)) &&
            |c| >= |color| + 7 && c[..|color| + 7] == "event " + color + " "
  {
    ClassNameFlags(ColorClass(s.shifts, a.shiftId), Highlighted(s, a), OutsideWindow(days, a));
  }
}

=== FILE: calendar_staff.dfy ===
/**
 * The per-staff view of the calendar (`generateStaffBasedCalendar`): the
 * selected staff member's events, the window days that are that member's
 * off-days, and one record per (pair range, day in the range) for the pair
 * highlights; plus the day-cell class that combines them (`dayCellContent`).
 */
module CalendarStaff {
  import opened Wrappers
  import opened CivilDate
  import opened DateFormat
  import opened ScheduleModel
  import opened Collections
  import opened CalendarDates
  import opened CalendarEvents
  import Text

  /** Number of distinct pair highlight colours. */
  const PairColors: nat := 20

  /** One day of a pair range, with the colour of its range and the paired staff member. */
  datatype PairDate = PairDate(date: string, pairIndex: nat, staffId: string)

  /** A selected staff id counts only when present and non-empty. */
  predicate IsSelected(sel: Option<string>) {
    sel.Some? && sel.value != ""
  }

  /** The event belongs to the selected staff member. */
  predicate BelongsTo(e: Event, sel: Option<string>) {
    IsSelected(sel) && e.staffId == sel.value
  }

  /** The events shown for the selected staff member: none when nobody is selected. */
  function StaffEvents(events: seq<Event>, sel: Option<string>): seq<Event> {
    Filter(events, (e: Event) => BelongsTo(e, sel))
  }

  /** The staff member whose id equals the selected id. */
  function SelectedStaff(staffs: seq<Staff>, sel: Option<string>): Option<Staff> {
    match sel
    case None => None
    case Some(id) => GetStaffById(staffs, id)
  }

  function OffDaysOf(staffs: seq<Staff>, sel: Option<string>): seq<string> {
    match SelectedStaff(staffs, sel)
    case Some(staff) => staff.offDays
    case None => []
  }

  function PairListOf(staffs: seq<Staff>, sel: Option<string>): seq<PairRange> {
    match SelectedStaff(staffs, sel)
    case Some(staff) => staff.pairList
    case None => []
  }

  /** A schedule bound re-written as `DD.MM.YYYY`, or "Invalid Date". */
  function BoundDmy(t: string): string {
    match ParseDay(t)
    case Some(d) => FormatDmy(d, '.')
    case None => InvalidDate
  }

  /**
   * The window's days as `DD-MM-YYYY`: what `getDatesBetween` gives for the
   * two bounds re-written as `DD.MM.YYYY` (see `WindowDaysReformatted`).
   */
  function WindowDays(s: Schedule): seq<string> {
    match (ParseDay(s.scheduleStartDate), ParseDay(s.scheduleEndDate))
    case (Some(a), Some(b)) => DayTexts(a, Span(a, b), DayFirst('-'))
    case _ => []
  }

  /** The days of the list whose `DD.MM.YYYY` form is an off-day. */
  function OffDayHighlights(dates: seq<string>, offDays: seq<string>): seq<string> {
    Filter(dates, (date: string) => DashToDot(date) in offDays)
  }

  /** The days of one pair range. */
  function RangeDays(pair: PairRange): seq<string> {
    DaysBetween(pair.startDate, pair.endDate)
  }

  /** The records of the k-th pair range of the list, given its days. */
  function RangeRecords(days: seq<string>, k: nat, staffId: string): (r: seq<PairDate>)
    ensures |r| == |days|
    ensures forall j :: 0 <= j < |days| ==> r[j] == PairDate(days[j], k % PairColors, staffId)
  {
    seq(|days|, j requires 0 <= j < |days| => PairDate(days[j], k % PairColors, staffId))
  }

  /**
   * The records of all pair ranges, range by range in list order, overlaps
   * kept, where `days` lists the days of a range. The per-staff view lists
   * them with `RangeDays`; the properties below hold for any listing.
   */
  function PairRecords(pairs: seq<PairRange>, days: PairRange -> seq<string>): (r: seq<PairDate>)
    ensures forall x :: x in r ==> x.pairIndex < PairColors
  {
    if |pairs| == 0 then []
    else
      var last := pairs[|pairs| - 1];
      PairRecords(pairs[..|pairs| - 1], days) + RangeRecords(days(last), |pairs| - 1, last.staffId)
  }

  /** The pair records of the per-staff view. */
  function PairDates(pairs: seq<PairRange>): seq<PairDate> {
    PairRecords(pairs, RangeDays)
  }

  /** Total number of listed days over the ranges, counting overlapping days once per range. */
  function RangeLengths(pairs: seq<PairRange>, days: PairRange -> seq<string>): nat {
    if |pairs| == 0 then 0
    else RangeLengths(pairs[..|pairs| - 1], days) + |days(pairs[|pairs| - 1])|
  }

  /** The three lists `generateStaffBasedCalendar` stores. */
  datatype StaffView = StaffView(events: seq<Event>, highlightedDates: seq<string>, pairDates: seq<PairDate>)

  function StaffViewOf(s: Schedule, allEvents: seq<Event>, sel: Option<string>): StaffView {
    StaffView(
      StaffEvents(allEvents, sel),
      OffDayHighlights(WindowDays(s), OffDaysOf(s.staffs, sel)),
      PairDates(PairListOf(s.staffs, sel)))
  }

  /** The off-day loop: keeps the dates whose `DD.MM.YYYY` form is an off-day. */
  method HighlightOffDays(dates: seq<string>, offDays: seq<string>) returns (highlightedDates: seq<string>)
    ensures highlightedDates == OffDayHighlights(dates, offDays)
  {
    var isOffDay := (date: string) => DashToDot(date) in offDays;
    highlightedDates := [];
    for i := 0 to |dates|
      invariant highlightedDates == Filter(dates[..i], isOffDay)
    {
      assert dates[..i + 1] == dates[..i] + [dates[i]];
      FilterConcat(dates[..i], [dates[i]], isOffDay);
      if DashToDot(dates[i]) in offDays {
        highlightedDates := highlightedDates + [dates[i]];
      }
    }
    assert dates[..|dates|] == dates;
  }

  /** The days of the k-th range and their records. */
  method CollectRangeRecords(pair: PairRange, k: nat) returns (records: seq<PairDate>)
    ensures records == RangeRecords(RangeDays(pair), k, pair.staffId)
  {
    var pairDates := GetDatesBetween(pair.startDate, pair.endDate);
    records := RecordDays(pairDates, k, pair.staffId);
  }

  /** The inner pair loop: one record per day of the k-th range. */
  method RecordDays(pairDates: seq<string>, k: nat, staffId: string) returns (records: seq<PairDate>)
    ensures records == RangeRecords(pairDates, k, staffId)
  {
    records := [];
    for j := 0 to |pairDates|
      invariant |records| == j
      invariant forall m :: 0 <= m < j ==> records[m] == PairDate(pairDates[m], k % PairColors, staffId)
    {
      records := records + [PairDate(pairDates[j], k % PairColors, staffId)];
    }
  }

  /** The outer pair loop: the records of every range, range by range. */
  method CollectPairDates(pairList: seq<PairRange>) returns (pairDatesArray: seq<PairDate>)
    ensures pairDatesArray == PairDates(pairList)
  {
    pairDatesArray := [];
    for i := 0 to |pairList|
      invariant pairDatesArray == PairRecords(pairList[..i], RangeDays)
    {
      var records := CollectRangeRecords(pairList[i], i);
      assert pairList[..i + 1][..i] == pairList[..i];
      pairDatesArray := pairDatesArray + records;
    }
    assert pairList[..|pairList|] == pairList;
  }

  /** `generateStaffBasedCalendar` once the events are known. */
  method BuildStaffView(s: Schedule, allEvents: seq<Event>, sel: Option<string>) returns (view: StaffView)
    ensures view == StaffViewOf(s, allEvents, sel)
  {
    var staffEvents := StaffEvents(allEvents, sel);
    var offDays := OffDaysOf(s.staffs, sel);
    var dates := GetDatesBetween(BoundDmy(s.scheduleStartDate), BoundDmy(s.scheduleEndDate));
    WindowDaysReformatted(s);
    var highlightedDates := HighlightOffDays(dates, offDays);
    var pairDatesArray := CollectPairDates(PairListOf(s.staffs, sel));
    view := StaffView(staffEvents, highlightedDates, pairDatesArray);
  }

  /** Nobody selected: no events are shown. */
  lemma StaffEventsUnselected(events: seq<Event>, sel: Option<string>)
    requires !IsSelected(sel)
    ensures StaffEvents(events, sel) == []
  {
    FilterNone(events, (e: Event) => BelongsTo(e, sel));
  }

  /** An event is shown exactly when it is one of the events and belongs to the selected staff member. */
  lemma StaffEventsMember(events: seq<Event>, id: string, e: Event)
    requires id != ""
    ensures e in StaffEvents(events, Some(id)) <==> e in events && e.staffId == id
  {
    FilterMember(events, (e: Event) => BelongsTo(e, Some(id)), e);
  }

  /** The shown events keep their relative order: filtering commutes with concatenation. */
  lemma StaffEventsOrder(xs: seq<Event>, ys: seq<Event>, sel: Option<string>)
    ensures StaffEvents(xs + ys, sel) == StaffEvents(xs, sel) + StaffEvents(ys, sel)
  {
    FilterConcat(xs, ys, (e: Event) => BelongsTo(e, sel));
  }

  /** Without a matching staff member no off-day is highlighted. */
  lemma HighlightsWithoutStaff(s: Schedule, sel: Option<string>)
    requires SelectedStaff(s.staffs, sel).None?
    ensures OffDayHighlights(WindowDays(s), OffDaysOf(s.staffs, sel)) == []
  {
    FilterNone(WindowDays(s), (date: string) => DashToDot(date) in OffDaysOf(s.staffs, sel));
  }

  /** A bound re-written as `DD.MM.YYYY` reads back as the day it denotes; an unreadable one stays unreadable. */
  lemma BoundDmyReadsBack(t: string)
    ensures ParseDmy(BoundDmy(t), '.') == ParseDay(t)
  {
    match ParseDay(t)
    case Some(d) => DmyRoundTrip(d, '.');
    case None => assert BoundDmy(t)[2] != '.';
  }

  /** Re-writing the bounds as `DD.MM.YYYY` and listing the days between them gives the window's days. */
  lemma WindowDaysReformatted(s: Schedule)
    ensures DaysBetween(BoundDmy(s.scheduleStartDate), BoundDmy(s.scheduleEndDate)) == WindowDays(s)
  {
    BoundDmyReadsBack(s.scheduleStartDate);
    BoundDmyReadsBack(s.scheduleEndDate);
  }

  /**
   * A day is highlighted as an off-day exactly when it lies in the window and
   * its `DD.MM.YYYY` form is one of the off-days.
   */
  lemma OffDayHighlightMember(s: Schedule, lo: Date, hi: Date, offDays: seq<string>, d: Date)
    requires ParseDay(s.scheduleStartDate) == Some(lo) && ParseDay(s.scheduleEndDate) == Some(hi)
    requires ValidDate(d)
    ensures FormatDmy(d, '-') in OffDayHighlights(WindowDays(s), offDays) <==>
              DayNumber(lo) <= DayNumber(d) <= DayNumber(hi) && FormatDmy(d, '.') in offDays
  {
    DayTextsMembership(lo, Span(lo, hi), DayFirst('-'), d);
    DashToDotOfFormatted(d);
    FilterMember(WindowDays(s), (date: string) => DashToDot(date) in offDays, FormatDmy(d, '-'));
  }

  /** Every highlighted entry is the `DD-MM-YYYY` text of a window day whose `DD.MM.YYYY` text is an off-day. */
  lemma OffDayHighlightsAreWindowDays(s: Schedule, lo: Date, hi: Date, offDays: seq<string>, x: string)
    requires ParseDay(s.scheduleStartDate) == Some(lo) && ParseDay(s.scheduleEndDate) == Some(hi)
    requires x in OffDayHighlights(WindowDays(s), offDays)
    ensures exists d :: ValidDate(d) && x == FormatDmy(d, '-') &&
              DayNumber(lo) <= DayNumber(d) <= DayNumber(hi) && FormatDmy(d, '.') in offDays
  {
    var w := WindowDays(s);
    FilterMember(w, (date: string) => DashToDot(date) in offDays, x);
    var i :| 0 <= i < |w| && w[i] == x;
    assert w == DayTexts(lo, Span(lo, hi), DayFirst('-'));
    DayTextsIndex(lo, Span(lo, hi), DayFirst('-'), i);
    var d := DaysFrom(lo, i);
    DaysFromNumber(lo, i);
    DashToDotOfFormatted(d);
    assert x == FormatDmy(d, '-');
  }

  lemma {:induction false} PairRecordsCount(pairs: seq<PairRange>, days: PairRange -> seq<string>)
    ensures |PairRecords(pairs, days)| == RangeLengths(pairs, days)
  {
    if |pairs| > 0 {
      PairRecordsCount(pairs[..|pairs| - 1], days);
    }
  }

  /** Every pair range contributes one record per day of its range, so the count is the sum of the range lengths. */
  lemma PairDatesCount(pairs: seq<PairRange>)
    ensures |PairDates(pairs)| == RangeLengths(pairs, RangeDays)
  {
    PairRecordsCount(pairs, RangeDays);
  }

  lemma {:induction false} PairRecordsMember(pairs: seq<PairRange>, days: PairRange -> seq<string>, x: PairDate)
    ensures x in PairRecords(pairs, days) <==>
              exists k :: 0 <= k < |pairs| && x.pairIndex == k % PairColors && x.staffId == pairs[k].staffId &&
                          x.date in days(pairs[k])
  {
    if |pairs| > 0 {
      var n := |pairs| - 1;
      var init := pairs[..n];
      PairRecordsMember(init, days, x);
      var ds := days(pairs[n]);
      var last := RangeRecords(ds, n, pairs[n].staffId);
      assert PairRecords(pairs, days) == PairRecords(init, days) + last;
      assert x in last <==> x.pairIndex == n % PairColors && x.staffId == pairs[n].staffId && x.date in ds by {
        if x in last {
          var j :| 0 <= j < |last| && last[j] == x;
        }
        if x.pairIndex == n % PairColors && x.staffId == pairs[n].staffId && x.date in ds {
          var j :| 0 <= j < |ds| && ds[j] == x.date;
        }
      }
      assert forall k :: 0 <= k < n ==> init[k] == pairs[k];
    }
  }

  /**
   * A record is emitted exactly when some range k of the list contains its
   * day, with colour k mod 20 and range k's paired staff member.
   */
  lemma PairDatesMember(pairs: seq<PairRange>, x: PairDate)
    ensures x in PairDates(pairs) <==>
              exists k :: 0 <= k < |pairs| && x.pairIndex == k % PairColors && x.staffId == pairs[k].staffId &&
                          x.date in RangeDays(pairs[k])
  {
    PairRecordsMember(pairs, RangeDays, x);
  }

  lemma PairRecordsCover(pairs: seq<PairRange>, days: PairRange -> seq<string>, k: nat, date: string)
    requires k < |pairs| && date in days(pairs[k])
    ensures PairDate(date, k % PairColors, pairs[k].staffId) in PairRecords(pairs, days)
  {
    var x := PairDate(date, k % PairColors, pairs[k].staffId);
    PairRecordsMember(pairs, days, x);
    assert 0 <= k < |pairs| && x.pairIndex == k % PairColors && x.staffId == pairs[k].staffId && x.date in days(pairs[k]);
  }

  lemma ColorsRepeatEveryTwenty(k: nat)
    ensures (k + PairColors) % PairColors == k % PairColors
  {
  }

  /**
   * Ranges twenty apart share a highlight colour: a day in both ranges k and
   * k + 20 is emitted twice with the same colour, once per paired staff member.
   */
  lemma PairColorsRepeat(pairs: seq<PairRange>, days: PairRange -> seq<string>, k: nat, date: string)
    requires k + PairColors < |pairs|
    requires date in days(pairs[k]) && date in days(pairs[k + PairColors])
    ensures PairDate(date, k % PairColors, pairs[k].staffId) in PairRecords(pairs, days)
    ensures PairDate(date, k % PairColors, pairs[k + PairColors].staffId) in PairRecords(pairs, days)
  {
    PairRecordsCover(pairs, days, k, date);
    PairRecordsCover(pairs, days, k + PairColors, date);
    ColorsRepeatEveryTwenty(k);
  }

  /** The first pair record for a day cell. */
  function FindPairDate(pairDates: seq<PairDate>, date: string): (r: Option<PairDate>)
    ensures r.None? <==> forall j :: 0 <= j < |pairDates| ==> pairDates[j].date != date
    ensures r.Some? ==> exists k :: 0 <= k < |pairDates| && pairDates[k] == r.value && r.value.date == date &&
                                    forall j :: 0 <= j < k ==> pairDates[j].date != date
  {
    Find(pairDates, (pd: PairDate) => pd.date == date)
  }

  /** `pair-highlight-<n>` for the first record of the day, or nothing. */
  function PairClass(pd: Option<PairDate>): string {
    match pd
    case Some(p) => "pair-highlight-" + Digits(p.pairIndex)
    case None => ""
  }

  /** The off-day highlight class of a day cell. */
  const OrangeMark: string := "highlighted-date-orange"

  /** A pair class is a single class name, and has no letter `o`. */
  lemma PairClassPlain(pd: Option<PairDate>)
    ensures ' ' !in PairClass(pd) && 'o' !in PairClass(pd)
  {
    if pd.Some? {
      var digits := Digits(pd.value.pairIndex);
      assert PairClass(pd) == "pair-highlight-" + digits;
      forall i | 0 <= i < |digits|
        ensures digits[i] != ' ' && digits[i] != 'o'
      {
        assert IsDigit(digits[i]);
      }
    }
  }

  /** A class list of the disabled class, the orange class and a pair class, in that order. */
  function CellClass(disabled: bool, orange: bool, pair: string): string {
    (if disabled then "date-range-disabled" else "") + " " +
    (if orange then OrangeMark else "") + " " +
    pair
  }

  /** `dayCellContent`'s class list for a day: disabled outside the window, off-day highlight, pair highlight. */
  function DayCellClass(s: Schedule, highlightedDates: seq<string>, pairDates: seq<PairDate>, d: Date): string
    requires ValidDate(d)
  {
    CellClass(FormatIso(d) !in ScheduleDays(s), FormatDmy(d, '-') in highlightedDates,
              PairClass(FindPairDate(pairDates, FormatDmy(d, '-'))))
  }

  /** A day cell is disabled exactly when the day lies outside the schedule window. */
  lemma DayCellDisabled(s: Schedule, lo: Date, hi: Date, highlightedDates: seq<string>, pairDates: seq<PairDate>, d: Date)
    requires s.scheduleStartDate != "" && s.scheduleEndDate != ""
    requires ParseDay(s.scheduleStartDate) == Some(lo) && ParseDay(s.scheduleEndDate) == Some(hi)
    requires ValidDate(d)
    ensures var c := DayCellClass(s, highlightedDates, pairDates, d);
            (|c| > 0 && c[0] == 'd') <==> !(DayNumber(lo) <= DayNumber(d) <= DayNumber(hi))
  {
    ScheduleDaysMembership(s, lo, hi, d);
  }

  /**
   * A class list built from a single pair class ends with that pair class,
   * and has the orange class exactly when it was asked for.
   */
  lemma CellClassMarks(disabled: bool, orange: bool, pair: string)
    requires ' ' !in pair && 'o' !in pair
    ensures var c := CellClass(disabled, orange, pair);
            |c| > |pair| && c[|c| - |pair| - 1] == ' ' && c[|c| - |pair|..] == pair
    ensures Text.Contains(CellClass(disabled, orange, pair), OrangeMark) <==> orange
  {
    var a := if disabled then "date-range-disabled" else "";
    var b := if orange then OrangeMark else "";
    var c := CellClass(disabled, orange, pair);
    assert c == a + " " + b + " " + pair;
    assert c[|c| - |pair|..] == pair;
    if orange {
      assert c == (a + " ") + OrangeMark + (" " + pair);
      assert Text.OccursAt(c, OrangeMark, |a| + 1);
    } else {
      assert 'o' !in c by {
        assert 'o' !in a + "  ";
        assert c == (a + "  ") + pair;
      }
      LacksOrange(c);
    }
  }

  /** A class list without the letter `o` cannot hold the orange class. */
  lemma LacksOrange(c: string)
    requires 'o' !in c
    ensures !Text.Contains(c, OrangeMark)
  {
    forall i | 0 <= i <= |c| - |OrangeMark|
      ensures !Text.OccursAt(c, OrangeMark, i)
    {
      assert c[i + 17] in c;
      assert OrangeMark[17] == 'o';
    }
  }

  /**
   * The last class of a day cell is the pair class of the first record for the
   * day's dashed form, and the orange off-day class occurs in the cell exactly
   * when that dashed form is among the highlighted dates.
   */
  lemma DayCellHighlights(s: Schedule, highlightedDates: seq<string>, pairDates: seq<PairDate>, d: Date)
    requires ValidDate(d)
    ensures var c := DayCellClass(s, highlightedDates, pairDates, d);
            var p := PairClass(FindPairDate(pairDates, FormatDmy(d, '-')));
            |c| > |p| && c[|c| - |p| - 1] == ' ' && c[|c| - |p|..] == p && ' ' !in p
    ensures Text.Contains(DayCellClass(s, highlightedDates, pairDates, d), OrangeMark)
            <==> FormatDmy(d, '-') in highlightedDates
  {
    var pd := FindPairDate(pairDates, FormatDmy(d, '-'));
    PairClassPlain(pd);
    CellClassMarks(FormatIso(d) !in ScheduleDays(s), FormatDmy(d, '-') in highlightedDates, PairClass(pd));
  }

  /** A day cell's pair colour is the colour of the first record for that day; its range number is below 20. */
  lemma DayCellPairColor(pairs: seq<PairRange>, date: string, k: nat)
    requires k < |PairDates(pairs)| && PairDates(pairs)[k].date == date
    requires forall j :: 0 <= j < k ==> PairDates(pairs)[j].date != date
    ensures FindPairDate(PairDates(pairs), date) == Some(PairDates(pairs)[k])
    ensures PairDates(pairs)[k].pairIndex < PairColors
  {
    var r := FindPairDate(PairDates(pairs), date);
    var m :| 0 <= m < |PairDates(pairs)| && PairDates(pairs)[m] == r.value && r.value.date == date &&
             forall j :: 0 <= j < m ==> PairDates(pairs)[j].date != date;
    assert m == k;
  }
}

=== FILE: calendar_state.dfy ===
/**
 * The calendar component's state and the handlers that write it: the
 * schedule effect (select the first staff member, project all events), the
 * per-staff recomputation, the example-event merge, the initial date taken
 * from the earliest assignment, the staff search, and the prev/next button
 * thresholds of the view callback.
 */
module CalendarState {
  import opened Wrappers
  import opened CivilDate
  import opened ScheduleModel
  import opened Collections
  import opened Text
  import opened CalendarEvents
  import opened CalendarStaff

  const ExampleEventId: string := "7f7a71ca-d828-4f88-9a7f-051acf93697b"
  const ExampleStaffId: string := "6a003ce0-f3e4-43e4-9f3d-f8850297ffa8"
  const ExampleShiftId: string := "1d8bd052-3750-4d5d-bdaa-70055737a2f0"

  /** The fixed event of the "Add Example Event" button, assigned to the selected staff member when there is one. */
  function ExampleEvent(sel: Option<string>): (e: Event)
    ensures e.id == ExampleEventId
    ensures IsSelected(sel) ==> e.staffId == sel.value
    ensures !IsSelected(sel) ==> e.staffId == ExampleStaffId
  {
    Event(
      ExampleEventId,
      Some("Morning"),
      "2025-10-06",
      if IsSelected(sel) then sel.value else ExampleStaffId,
      ExampleShiftId,
      "2025-10-06T08:30:00.000Z",
      "2025-10-06T12:00:00.000Z",
      "2025-10-06T08:30:00.000Z",
      "2025-10-06T12:00:00.000Z",
      "event bg-one ")
  }

  /** Drops every event with e's id, then appends e. */
  function ReplaceOrAppend(events: seq<Event>, e: Event): (r: seq<Event>)
    ensures |r| > 0 && r[|r| - 1] == e
    ensures forall i :: 0 <= i < |r| - 1 ==> r[i].id != e.id && r[i] in events
  {
    Filter(events, (x: Event) => x.id != e.id) + [e]
  }

  /** After the merge, e is the only event carrying its id. */
  lemma ReplaceOrAppendSingle(events: seq<Event>, e: Event, i: nat)
    requires i < |ReplaceOrAppend(events, e)| && ReplaceOrAppend(events, e)[i].id == e.id
    ensures i == |ReplaceOrAppend(events, e)| - 1
  {
  }

  /** Every event with another id survives the merge (`ReplaceOrAppendKeepsOrder` gives their order). */
  lemma ReplaceOrAppendKeepsOthers(events: seq<Event>, e: Event, x: Event)
    requires x in events && x.id != e.id
    ensures x in ReplaceOrAppend(events, e)[..|ReplaceOrAppend(events, e)| - 1]
  {
    var kept := Filter(events, (y: Event) => y.id != e.id);
    FilterMember(events, (y: Event) => y.id != e.id, x);
    assert ReplaceOrAppend(events, e)[..|ReplaceOrAppend(events, e)| - 1] == kept;
  }

  /**
   * The merge keeps the relative order of the other events: when events are
   * split in two, the kept events of the first part all come before those of
   * the second part.
   */
  lemma ReplaceOrAppendKeepsOrder(front: seq<Event>, back: seq<Event>, e: Event)
    ensures ReplaceOrAppend(front + back, e)
      == Filter(front, (y: Event) => y.id != e.id) + Filter(back, (y: Event) => y.id != e.id) + [e]
  {
    FilterConcat(front, back, (y: Event) => y.id != e.id);
  }

  /** Pressing the button twice leaves the same list as pressing it once. */
  lemma ReplaceOrAppendIdempotent(events: seq<Event>, e: Event)
    ensures ReplaceOrAppend(ReplaceOrAppend(events, e), e) == ReplaceOrAppend(events, e)
  {
    var p := (x: Event) => x.id != e.id;
    var kept := Filter(events, p);
    FilterConcat(kept, [e], p);
    FilterIdempotent(events, p);
    assert Filter([e], p) == [];
  }

  /**
   * The assignment a stable sort by start instant puts first: the first one
   * with the least instant. `timeOf` reads an instant as a timestamp.
   */
  function EarliestIndex(xs: seq<Assignment>, timeOf: string -> int): (k: nat)
    requires |xs| > 0
    ensures k < |xs|
    ensures forall j :: 0 <= j < |xs| ==> timeOf(xs[k].shiftStart) <= timeOf(xs[j].shiftStart)
    ensures forall j :: 0 <= j < k ==> timeOf(xs[j].shiftStart) > timeOf(xs[k].shiftStart)
  {
    if |xs| == 1 then 0
    else
      var k := EarliestIndex(xs[..|xs| - 1], timeOf);
      if timeOf(xs[|xs| - 1].shiftStart) < timeOf(xs[k].shiftStart) then |xs| - 1 else k
  }

  /** The earliest start is the same whichever of two equally early candidates a sort picks: it is unique as an instant. */
  lemma EarliestIsLeast(xs: seq<Assignment>, timeOf: string -> int, j: nat)
    requires j < |xs|
    requires forall m :: 0 <= m < |xs| ==> timeOf(xs[j].shiftStart) <= timeOf(xs[m].shiftStart)
    requires forall m :: 0 <= m < j ==> timeOf(xs[m].shiftStart) > timeOf(xs[j].shiftStart)
    ensures EarliestIndex(xs, timeOf) == j
  {
  }

  /** The staff search: names containing the term, both lower-cased. */
  function FilteredStaff(staffs: seq<Staff>, term: string): (r: seq<Staff>)
    ensures |r| <= |staffs| && forall x :: x in r ==> x in staffs
  {
    Filter(staffs, (staff: Staff) => Contains(Lower(staff.name), Lower(term)))
  }

  lemma ContainsEmpty(s: string)
    ensures Contains(s, "")
  {
    assert OccursAt(s, "", 0);
  }

  /** A staff member is listed exactly when the lower-cased term occurs in the lower-cased name. */
  lemma FilteredStaffMember(staffs: seq<Staff>, term: string, staff: Staff)
    ensures staff in FilteredStaff(staffs, term) <==> staff in staffs && Contains(Lower(staff.name), Lower(term))
  {
    FilterMember(staffs, (staff: Staff) => Contains(Lower(staff.name), Lower(term)), staff);
  }

  /** An empty search lists everybody, in order. */
  lemma FilteredStaffEmptyTerm(staffs: seq<Staff>)
    ensures FilteredStaff(staffs, "") == staffs
  {
    forall i | 0 <= i < |staffs|
      ensures Contains(Lower(staffs[i].name), Lower(""))
    {
      ContainsEmpty(Lower(staffs[i].name));
    }
    FilterAll(staffs, (staff: Staff) => Contains(Lower(staff.name), Lower("")));
  }

  /** The search ignores the case of the term. */
  lemma FilteredStaffIgnoresCase(staffs: seq<Staff>, term: string)
    ensures FilteredStaff(staffs, Upper(term)) == FilteredStaff(staffs, term)
  {
    LowerOfUpper(term);
  }

  /**
   * The previous-month button is disabled when the view's first day, measured
   * from the day before the schedule starts, lies between 1 and 34 days
   * earlier: `startDiff < 0 && startDiff > -35`.
   */
  function PrevDisabled(viewStart: Date, scheduleStart: Date): (r: bool)
    requires ValidDate(viewStart) && ValidDate(scheduleStart)
    ensures r <==> DayNumber(scheduleStart) - 36 < DayNumber(viewStart) < DayNumber(scheduleStart) - 1
  {
    var startDiff := DayNumber(viewStart) - (DayNumber(scheduleStart) - 1);
    startDiff < 0 && startDiff > -35
  }

  /**
   * The next-month button is disabled when the view's exclusive end lies
   * between 1 and 31 days after the schedule's end: `endDiff < 0 && endDiff > -32`.
   */
  function NextDisabled(viewEnd: Date, scheduleEnd: Date): (r: bool)
    requires ValidDate(viewEnd) && ValidDate(scheduleEnd)
    ensures r <==> DayNumber(scheduleEnd) < DayNumber(viewEnd) < DayNumber(scheduleEnd) + 32
  {
    var endDiff := DayNumber(scheduleEnd) - DayNumber(viewEnd);
    endDiff < 0 && endDiff > -32
  }

  /** A view that starts on the schedule's first day, or the day before it, leaves the previous button enabled. */
  lemma PrevEnabledAtStart(viewStart: Date, scheduleStart: Date)
    requires ValidDate(viewStart) && ValidDate(scheduleStart)
    requires DayNumber(viewStart) >= DayNumber(scheduleStart) - 1
    ensures !PrevDisabled(viewStart, scheduleStart)
  {
  }

  /** The calendar component's state. */
  class CalendarView {
    var allEvents: seq<Event>
    var events: seq<Event>
    var highlightedDates: seq<string>
    var pairDates: seq<PairDate>
    var selectedStaffId: Option<string>
    var initialDate: Option<string>
    var calendarInitialized: bool
    var searchTerm: string

    constructor ()
      ensures allEvents == [] && events == [] && highlightedDates == [] && pairDates == []
      ensures selectedStaffId == None && initialDate == None && !calendarInitialized && searchTerm == ""
    {
      allEvents := [];
      events := [];
      highlightedDates := [];
      pairDates := [];
      selectedStaffId := None;
      initialDate := None;
      calendarInitialized := false;
      searchTerm := "";
    }

    /** `generateAllEvents`: projects every assignment and stores the result. */
    method GenerateAllEvents(s: Schedule) returns (works: seq<Event>)
      modifies this
      ensures works == AllEvents(s) && allEvents == works
      ensures events == old(events) && highlightedDates == old(highlightedDates) && pairDates == old(pairDates)
      ensures selectedStaffId == old(selectedStaffId) && initialDate == old(initialDate)
      ensures calendarInitialized == old(calendarInitialized) && searchTerm == old(searchTerm)
    {
      works := ProjectAllEvents(s);
      allEvents := works;
    }

    /** The events `generateStaffBasedCalendar` works on: the stored ones, projected afresh when none are stored yet. */
    method EnsureAllEvents(s: Schedule) returns (allEventsData: seq<Event>)
      modifies this
      ensures allEventsData == allEvents
      ensures allEvents == if |old(allEvents)| > 0 then old(allEvents) else AllEvents(s)
      ensures events == old(events) && highlightedDates == old(highlightedDates) && pairDates == old(pairDates)
      ensures selectedStaffId == old(selectedStaffId) && initialDate == old(initialDate)
      ensures calendarInitialized == old(calendarInitialized) && searchTerm == old(searchTerm)
    {
      allEventsData := allEvents;
      if |allEvents| == 0 {
        allEventsData := GenerateAllEvents(s);
      }
    }

    /**
     * `generateStaffBasedCalendar`: nothing happens when a schedule bound is
     * missing; otherwise the stored events (projected afresh when none are
     * stored yet) are narrowed to the selected staff member, with that
     * member's off-day and pair highlights.
     */
    method GenerateStaffBasedCalendar(s: Schedule)
      modifies this
      ensures s.scheduleStartDate == "" || s.scheduleEndDate == "" ==>
                allEvents == old(allEvents) && events == old(events) &&
                highlightedDates == old(highlightedDates) && pairDates == old(pairDates)
      ensures s.scheduleStartDate != "" && s.scheduleEndDate != "" ==>
                allEvents == (if |old(allEvents)| > 0 then old(allEvents) else AllEvents(s)) &&
                StaffView(events, highlightedDates, pairDates) == StaffViewOf(s, allEvents, selectedStaffId)
      ensures selectedStaffId == old(selectedStaffId) && initialDate == old(initialDate)
      ensures calendarInitialized == old(calendarInitialized) && searchTerm == old(searchTerm)
    {
      if s.scheduleStartDate == "" || s.scheduleEndDate == "" {
        return;
      }
      var allEventsData := EnsureAllEvents(s);
      var view := BuildStaffView(s, allEventsData, selectedStaffId);
      pairDates, highlightedDates, events := view.pairDates, view.highlightedDates, view.events;
    }

    /** The schedule effect: select the first staff member and project all events. */
    method OnScheduleChange(s: Schedule)
      modifies this
      ensures selectedStaffId == (if |s.staffs| > 0 then Some(s.staffs[0].id) else None)
      ensures allEvents == AllEvents(s)
      ensures events == old(events) && highlightedDates == old(highlightedDates) && pairDates == old(pairDates)
      ensures initialDate == old(initialDate) && calendarInitialized == old(calendarInitialized)
      ensures searchTerm == old(searchTerm)
    {
      selectedStaffId := if |s.staffs| > 0 then Some(s.staffs[0].id) else None;
      var _ := GenerateAllEvents(s);
    }

    /** Clicking a staff member in the list selects it. */
    method SelectStaff(id: string)
      modifies this
      ensures selectedStaffId == Some(id)
      ensures allEvents == old(allEvents) && events == old(events)
      ensures highlightedDates == old(highlightedDates) && pairDates == old(pairDates)
      ensures initialDate == old(initialDate) && calendarInitialized == old(calendarInitialized)
      ensures searchTerm == old(searchTerm)
    {
      selectedStaffId := Some(id);
    }

    /** Typing in the search box. */
    method SetSearchTerm(term: string)
      modifies this
      ensures searchTerm == term
      ensures allEvents == old(allEvents) && events == old(events)
      ensures highlightedDates == old(highlightedDates) && pairDates == old(pairDates)
      ensures selectedStaffId == old(selectedStaffId) && initialDate == old(initialDate)
      ensures calendarInitialized == old(calendarInitialized)
    {
      searchTerm := term;
    }

    /**
     * The initial-date effect: the first time assignments are present, the
     * calendar opens on the earliest start and never moves on its own again.
     */
    method InitializeDate(s: Schedule, timeOf: string -> int)
      modifies this
      ensures old(calendarInitialized) || |AssignmentsOf(s)| == 0 ==>
                initialDate == old(initialDate) && calendarInitialized == old(calendarInitialized)
      ensures !old(calendarInitialized) && |AssignmentsOf(s)| > 0 ==>
                calendarInitialized &&
                initialDate == Some(AssignmentsOf(s)[EarliestIndex(AssignmentsOf(s), timeOf)].shiftStart)
      ensures allEvents == old(allEvents) && events == old(events)
      ensures highlightedDates == old(highlightedDates) && pairDates == old(pairDates)
      ensures selectedStaffId == old(selectedStaffId) && searchTerm == old(searchTerm)
    {
      var xs := AssignmentsOf(s);
      if |xs| > 0 && !calendarInitialized {
        var k := EarliestIndex(xs, timeOf);
        initialDate := Some(xs[k].shiftStart);
        calendarInitialized := true;
      }
    }

    /** `addExampleEvent`: merges the example event into both event lists. */
    method AddExampleEvent()
      modifies this
      ensures allEvents == ReplaceOrAppend(old(allEvents), ExampleEvent(selectedStaffId))
      ensures events == ReplaceOrAppend(old(events), ExampleEvent(selectedStaffId))
      ensures highlightedDates == old(highlightedDates) && pairDates == old(pairDates)
      ensures selectedStaffId == old(selectedStaffId) && initialDate == old(initialDate)
      ensures calendarInitialized == old(calendarInitialized) && searchTerm == old(searchTerm)
    {
      var specificEvent := ExampleEvent(selectedStaffId);
      allEvents := ReplaceOrAppend(allEvents, specificEvent);
      events := ReplaceOrAppend(events, specificEvent);
    }
  }
}

=== FILE: civil_date.dfy ===
/**
 * Calendar dates of the proleptic Gregorian calendar and their day numbers.
 *
 * The calendar code walks dates one day at a time (`add(1, "day")`,
 * `setDate(getDate() + 1)`) and compares them by timestamp. Here a date is a
 * (year, month, day) triple, one step of the walk is `NextDay`, and the
 * comparison of two dates at day precision is the comparison of their
 * `DayNumber`s, the count of days since 0000-01-01.
 */
module CivilDate {

  datatype Date = Date(year: nat, month: nat, day: nat)

  /** The Gregorian leap-year rule. */
  predicate IsLeapYear(y: nat) {
    (y % 4 == 0 && y % 100 != 0) || y % 400 == 0
  }

  function DaysInMonth(y: nat, m: nat): (n: nat)
    requires 1 <= m <= 12
    ensures 28 <= n <= 31
    ensures n == 29 <==> m == 2 && IsLeapYear(y)
  {
    if m == 2 then (if IsLeapYear(y) then 29 else 28)
    else if m == 4 || m == 6 || m == 9 || m == 11 then 30
    else 31
  }

  function YearLength(y: nat): nat {
    if IsLeapYear(y) then 366 else 365
  }

  /** A date that exists in the calendar: no 31 April, no 29 February in a common year. */
  predicate ValidDate(d: Date) {
    1 <= d.month <= 12 && 1 <= d.day <= DaysInMonth(d.year, d.month)
  }

  /** Days in the years 0 .. y-1. */
  function DaysBeforeYear(y: nat): nat {
    if y == 0 then 0 else DaysBeforeYear(y - 1) + YearLength(y - 1)
  }

  /** Days in the months 1 .. m-1 of year y. */
  function DaysBeforeMonth(y: nat, m: nat): nat
    requires 1 <= m <= 13
  {
    if m == 1 then 0 else DaysBeforeMonth(y, m - 1) + DaysInMonth(y, m - 1)
  }

  /** Days from 0000-01-01 to d; 0000-01-01 itself is day 0. */
  function DayNumber(d: Date): int
    requires ValidDate(d)
  {
    DaysBeforeYear(d.year) + DaysBeforeMonth(d.year, d.month) + d.day - 1
  }

  /** The calendar day after d, rolling over month and year ends. */
  function NextDay(d: Date): (r: Date)
    requires ValidDate(d)
    ensures ValidDate(r)
  {
    if d.day < DaysInMonth(d.year, d.month) then Date(d.year, d.month, d.day + 1)
    else if d.month < 12 then Date(d.year, d.month + 1, 1)
    else Date(d.year + 1, 1, 1)
  }

  /** The date k days after d. */
  function DaysFrom(d: Date, k: nat): (r: Date)
    requires ValidDate(d)
    ensures ValidDate(r)
  {
    if k == 0 then d else NextDay(DaysFrom(d, k - 1))
  }

  /**
   * The closed form of the year offset: 365 days a year plus one for every
   * multiple of 4 below y, minus the multiples of 100, plus the multiples of 400.
   */
  function YearOffsetFormula(y: nat): int {
    365 * y + (y + 3) / 4 - (y + 99) / 100 + (y + 399) / 400
  }

  /** The recursive year offset agrees with the closed form for every year. */
  lemma {:induction false} DaysBeforeYearClosedForm(y: nat)
    ensures DaysBeforeYear(y) == YearOffsetFormula(y)
  {
    if y > 0 {
      DaysBeforeYearClosedForm(y - 1);
      FormulaStep(y - 1);
    }
  }

  /** From year x to x + 1 the closed form grows by the length of year x. */
  lemma FormulaStep(x: nat)
    ensures YearOffsetFormula(x + 1) == YearOffsetFormula(x) + YearLength(x)
  {
    MultiplesStep4(x);
    MultiplesStep100(x);
    MultiplesStep400(x);
    if x % 400 == 0 {
      CenturyOfFourCenturies(x);
      LeapOfCentury(x);
    } else if x % 100 == 0 {
      LeapOfCentury(x);
    }
  }

  lemma {:induction false} CenturyOfFourCenturies(x: nat)
    requires x % 400 == 0
    ensures x % 100 == 0
  {
    if x >= 400 {
      CenturyOfFourCenturies(x - 400);
    }
  }

  lemma {:induction false} LeapOfCentury(x: nat)
    requires x % 100 == 0
    ensures x % 4 == 0
  {
    if x >= 100 {
      LeapOfCentury(x - 100);
    }
  }

  lemma MultiplesStep4(x: nat)
    ensures (x + 4) / 4 - (x + 3) / 4 == if x % 4 == 0 then 1 else 0
  {
  }

  lemma MultiplesStep100(x: nat)
    ensures (x + 100) / 100 - (x + 99) / 100 == if x % 100 == 0 then 1 else 0
  {
  }

  lemma MultiplesStep400(x: nat)
    ensures (x + 400) / 400 - (x + 399) / 400 == if x % 400 == 0 then 1 else 0
  {
  }

  lemma {:induction false} DaysBeforeMonthMonotone(y: nat, m1: nat, m2: nat)
    requires 1 <= m1 <= m2 <= 13
    ensures DaysBeforeMonth(y, m1) <= DaysBeforeMonth(y, m2)
    decreases m2 - m1
  {
    if m1 < m2 {
      DaysBeforeMonthMonotone(y, m1, m2 - 1);
    }
  }

  lemma MonthsFillYear(y: nat)
    ensures DaysBeforeMonth(y, 13) == YearLength(y)
  {
    assert DaysBeforeMonth(y, 2) == 31;
    assert DaysBeforeMonth(y, 3) == 31 + DaysInMonth(y, 2);
    assert DaysBeforeMonth(y, 4) == DaysBeforeMonth(y, 3) + 31;
    assert DaysBeforeMonth(y, 5) == DaysBeforeMonth(y, 3) + 61;
    assert DaysBeforeMonth(y, 6) == DaysBeforeMonth(y, 3) + 92;
    assert DaysBeforeMonth(y, 7) == DaysBeforeMonth(y, 3) + 122;
    assert DaysBeforeMonth(y, 8) == DaysBeforeMonth(y, 3) + 153;
    assert DaysBeforeMonth(y, 9) == DaysBeforeMonth(y, 3) + 184;
    assert DaysBeforeMonth(y, 10) == DaysBeforeMonth(y, 3) + 214;
    assert DaysBeforeMonth(y, 11) == DaysBeforeMonth(y, 3) + 245;
    assert DaysBeforeMonth(y, 12) == DaysBeforeMonth(y, 3) + 275;
  }

  lemma {:induction false} DaysBeforeYearMonotone(y1: nat, y2: nat)
    requires y1 <= y2
    ensures DaysBeforeYear(y1) <= DaysBeforeYear(y2)
    decreases y2 - y1
  {
    if y1 < y2 {
      DaysBeforeYearMonotone(y1, y2 - 1);
    }
  }

  /** A valid date's day number lies inside its year and inside its month. */
  lemma DayNumberBounds(d: Date)
    requires ValidDate(d)
    ensures DaysBeforeYear(d.year) <= DayNumber(d) < DaysBeforeYear(d.year + 1)
    ensures DaysBeforeMonth(d.year, d.month) <= DayNumber(d) - DaysBeforeYear(d.year)
                                             < DaysBeforeMonth(d.year, d.month + 1)
  {
    DaysBeforeMonthMonotone(d.year, d.month + 1, 13);
    MonthsFillYear(d.year);
  }

  /** One step of the walk advances the day number by exactly one. */
  lemma NextDayNumber(d: Date)
    requires ValidDate(d)
    ensures DayNumber(NextDay(d)) == DayNumber(d) + 1
  {
    if d.day == DaysInMonth(d.year, d.month) && d.month == 12 {
      MonthsFillYear(d.year);
    }
  }

  /** k steps of the walk advance the day number by exactly k. */
  lemma {:induction false} DaysFromNumber(d: Date, k: nat)
    requires ValidDate(d)
    ensures DayNumber(DaysFrom(d, k)) == DayNumber(d) + k
  {
    if k > 0 {
      var p := DaysFrom(d, k - 1);
      DaysFromNumber(d, k - 1);
      NextDayNumber(p);
      assert DaysFrom(d, k) == NextDay(p);
    }
  }

  /** Every day of an earlier year comes before every day of a later one. */
  lemma EarlierYearFirst(a: Date, b: Date)
    requires ValidDate(a) && ValidDate(b) && a.year < b.year
    ensures DayNumber(a) < DayNumber(b)
  {
    DayNumberBounds(a);
    DayNumberBounds(b);
    DaysBeforeYearMonotone(a.year + 1, b.year);
  }

  /** Within a year, every day of an earlier month comes before every day of a later one. */
  lemma EarlierMonthFirst(a: Date, b: Date)
    requires ValidDate(a) && ValidDate(b) && a.year == b.year && a.month < b.month
    ensures DayNumber(a) < DayNumber(b)
  {
    DayNumberBounds(a);
    DayNumberBounds(b);
    DaysBeforeMonthMonotone(a.year, a.month + 1, b.month);
    var y := a.year;
    assert DayNumber(a) < DaysBeforeYear(y) + DaysBeforeMonth(y, a.month + 1);
    assert DaysBeforeYear(y) + DaysBeforeMonth(y, b.month) <= DayNumber(b);
  }

  /** Day numbers order dates as the calendar does: by year, then month, then day. */
  lemma DayNumberOrder(a: Date, b: Date)
    requires ValidDate(a) && ValidDate(b)
    ensures DayNumber(a) < DayNumber(b) <==>
            a.year < b.year || (a.year == b.year && (a.month < b.month || (a.month == b.month && a.day < b.day)))
  {
    if a.year < b.year {
      EarlierYearFirst(a, b);
    } else if b.year < a.year {
      EarlierYearFirst(b, a);
    } else if a.month < b.month {
      EarlierMonthFirst(a, b);
    } else if b.month < a.month {
      EarlierMonthFirst(b, a);
    }
  }

  /** Day numbers are a one-to-one labelling of valid dates. */
  lemma DayNumberInjective(a: Date, b: Date)
    requires ValidDate(a) && ValidDate(b)
    requires DayNumber(a) == DayNumber(b)
    ensures a == b
  {
    DayNumberOrder(a, b);
    DayNumberOrder(b, a);
  }

  /** Every valid date at or after d is reached by walking forward from d. */
  lemma ReachedByWalk(d: Date, e: Date)
    requires ValidDate(d) && ValidDate(e)
    requires DayNumber(d) <= DayNumber(e)
    ensures DaysFrom(d, DayNumber(e) - DayNumber(d)) == e
  {
    WalkReaches(d, e, DayNumber(e) - DayNumber(d));
  }

  /** Walking k days from d reaches the date whose day number is k more. */
  lemma WalkReaches(d: Date, e: Date, k: nat)
    requires ValidDate(d) && ValidDate(e)
    requires DayNumber(e) == DayNumber(d) + k
    ensures DaysFrom(d, k) == e
  {
    DaysFromNumber(d, k);
    DayNumberInjective(DaysFrom(d, k), e);
  }
}

=== FILE: collections.dfy ===
/**
 * The array operations the calendar code relies on: `findIndex`, `find`,
 * `filter` and `includes`, over sequences.
 */
module Collections {
  import opened Wrappers

  /** `xs.findIndex(p)`: the first index whose element satisfies p, or -1. */
  function FindIndex<T>(xs: seq<T>, p: T -> bool): (k: int)
    ensures -1 <= k < |xs|
    ensures k >= 0 ==> p(xs[k]) && forall j :: 0 <= j < k ==> !p(xs[j])
    ensures k == -1 <==> forall j :: 0 <= j < |xs| ==> !p(xs[j])
  {
    if |xs| == 0 then -1
    else if p(xs[0]) then 0
    else
      var k := FindIndex(xs[1..], p);
      if k == -1 then -1 else k + 1
  }

  /** `xs.find(p)`: the first element that satisfies p, or nothing. */
  function Find<T>(xs: seq<T>, p: T -> bool): (r: Option<T>)
    ensures r.None? <==> forall j :: 0 <= j < |xs| ==> !p(xs[j])
    ensures r.Some? ==> exists k :: 0 <= k < |xs| && xs[k] == r.value && p(xs[k]) &&
                                    forall j :: 0 <= j < k ==> !p(xs[j])
  {
    var k := FindIndex(xs, p);
    if k < 0 then None else Some(xs[k])
  }

  /** The first index whose element satisfies p is what `findIndex` returns. */
  lemma FindIndexFirst<T>(xs: seq<T>, p: T -> bool, k: nat)
    requires k < |xs| && p(xs[k])
    requires forall j :: 0 <= j < k ==> !p(xs[j])
    ensures FindIndex(xs, p) == k
  {
  }

  /** `xs.map(f)`. */
  function Map<T, U>(xs: seq<T>, f: T -> U): (r: seq<U>)
    ensures |r| == |xs|
    ensures forall i :: 0 <= i < |xs| ==> r[i] == f(xs[i])
  {
    if |xs| == 0 then [] else Map(xs[..|xs| - 1], f) + [f(xs[|xs| - 1])]
  }

  /** The list f(0), ..., f(n - 1). */
  function Tabulate<T>(n: nat, f: nat -> T): (r: seq<T>)
    ensures |r| == n
    ensures forall i :: 0 <= i < n ==> r[i] == f(i)
  {
    if n == 0 then [] else Tabulate(n - 1, f) + [f(n - 1)]
  }

  /** `xs.filter(p)`. */
  function Filter<T>(xs: seq<T>, p: T -> bool): (r: seq<T>)
    ensures |r| <= |xs|
    ensures forall i :: 0 <= i < |r| ==> r[i] in xs && p(r[i])
    ensures forall i :: 0 <= i < |xs| && p(xs[i]) ==> xs[i] in r
  {
    if |xs| == 0 then []
    else if p(xs[0]) then [xs[0]] + Filter(xs[1..], p)
    else Filter(xs[1..], p)
  }

  /** Filtering commutes with concatenation, so the kept elements stay in their original order. */
  lemma {:induction false} FilterConcat<T>(xs: seq<T>, ys: seq<T>, p: T -> bool)
    ensures Filter(xs + ys, p) == Filter(xs, p) + Filter(ys, p)
  {
    if |xs| > 0 {
      assert (xs + ys)[1..] == xs[1..] + ys;
      FilterConcat(xs[1..], ys, p);
    } else {
      assert xs + ys == ys;
    }
  }

  /** Filtering with a predicate every element satisfies keeps everything. */
  lemma {:induction false} FilterAll<T>(xs: seq<T>, p: T -> bool)
    requires forall i :: 0 <= i < |xs| ==> p(xs[i])
    ensures Filter(xs, p) == xs
  {
    if |xs| > 0 {
      FilterAll(xs[1..], p);
    }
  }

  /** Filtering twice with the same predicate is filtering once. */
  lemma {:induction false} FilterIdempotent<T>(xs: seq<T>, p: T -> bool)
    ensures Filter(Filter(xs, p), p) == Filter(xs, p)
  {
    FilterAll(Filter(xs, p), p);
  }

  /** An element survives filtering exactly when it occurs in the list and satisfies the predicate. */
  lemma FilterMember<T>(xs: seq<T>, p: T -> bool, x: T)
    ensures x in Filter(xs, p) <==> x in xs && p(x)
  {
    var r := Filter(xs, p);
    if x in r {
      var i :| 0 <= i < |r| && r[i] == x;
    }
    if x in xs && p(x) {
      var i :| 0 <= i < |xs| && xs[i] == x;
    }
  }

  /** Filtering with a predicate no element satisfies keeps nothing. */
  lemma {:induction false} FilterNone<T>(xs: seq<T>, p: T -> bool)
    requires forall i :: 0 <= i < |xs| ==> !p(xs[i])
    ensures Filter(xs, p) == []
  {
    if |xs| > 0 {
      FilterNone(xs[1..], p);
    }
  }
}

=== FILE: date_format.dfy ===
/**
 * The three date formats the calendar uses and their parsers:
 * `YYYY-MM-DD` (schedule window, event dates), `DD-MM-YYYY` (highlight lists)
 * and `DD.MM.YYYY` (staff off-days and pair ranges). Days and months are
 * zero-padded to two digits, years to at least four. A string that does not
 * denote a valid date parses to `None`; formatting such a value gives the
 * text "Invalid Date", as the date library does.
 */
module DateFormat {
  import opened Wrappers
  import opened CivilDate

  const InvalidDate: string := "Invalid Date"

  predicate IsDigit(c: char) {
    '0' <= c <= '9'
  }

  predicate AllDigits(s: string) {
    forall i :: 0 <= i < |s| ==> IsDigit(s[i])
  }

  function DigitChar(n: nat): (c: char)
    requires n < 10
    ensures IsDigit(c)
  {
    ('0' as int + n) as char
  }

  function DigitValue(c: char): (n: nat)
    requires IsDigit(c)
    ensures n < 10 && DigitChar(n) == c
  {
    c as int - '0' as int
  }

  /** Decimal digits of n, most significant first, without leading zeros. */
  function Digits(n: nat): (s: string)
    ensures |s| >= 1 && AllDigits(s)
  {
    if n < 10 then [DigitChar(n)] else Digits(n / 10) + [DigitChar(n % 10)]
  }

  /** The value of a string of decimal digits. */
  function ParseNat(s: string): nat
    requires AllDigits(s)
  {
    if |s| == 0 then 0 else ParseNat(s[..|s| - 1]) * 10 + DigitValue(s[|s| - 1])
  }

  /** s left-padded with zeros to at least the given width. */
  function PadZeros(s: string, width: nat): (r: string)
    requires AllDigits(s)
    ensures AllDigits(r)
    ensures |r| == if |s| >= width then |s| else width
    decreases width - |s|
  {
    if |s| >= width then s else PadZeros(['0'] + s, width)
  }

  /** A number below 100 as exactly two digits. */
  function TwoDigits(n: nat): (s: string)
    requires n < 100
    ensures |s| == 2 && AllDigits(s)
  {
    [DigitChar(n / 10), DigitChar(n % 10)]
  }

  function YearDigits(y: nat): (s: string)
    ensures |s| >= 4 && AllDigits(s)
  {
    PadZeros(Digits(y), 4)
  }

  /** `YYYY-MM-DD`. */
  function FormatIso(d: Date): string
    requires ValidDate(d)
  {
    YearDigits(d.year) + "-" + TwoDigits(d.month) + "-" + TwoDigits(d.day)
  }

  /** `DD<sep>MM<sep>YYYY`: `DD-MM-YYYY` or `DD.MM.YYYY`. */
  function FormatDmy(d: Date, sep: char): string
    requires ValidDate(d)
  {
    TwoDigits(d.day) + [sep] + TwoDigits(d.month) + [sep] + YearDigits(d.year)
  }

  function CheckDate(year: nat, month: nat, day: nat): (r: Option<Date>)
    ensures r.Some? <==> ValidDate(Date(year, month, day))
    ensures r.Some? ==> r.value == Date(year, month, day)
  {
    if ValidDate(Date(year, month, day)) then Some(Date(year, month, day)) else None
  }

  /** Parses `YYYY-MM-DD` (at least four year digits). */
  function ParseIso(s: string): (r: Option<Date>)
    ensures r.Some? ==> ValidDate(r.value)
  {
    if |s| < 10 then None
    else
      var k := |s| - 6;
      if AllDigits(s[..k]) && s[k] == '-' && AllDigits(s[k + 1..k + 3]) && s[k + 3] == '-' && AllDigits(s[k + 4..])
      then CheckDate(ParseNat(s[..k]), ParseNat(s[k + 1..k + 3]), ParseNat(s[k + 4..]))
      else None
  }

  /** Parses `DD<sep>MM<sep>YYYY` (at least four year digits). */
  function ParseDmy(s: string, sep: char): (r: Option<Date>)
    ensures r.Some? ==> ValidDate(r.value)
  {
    if |s| < 10 then None
    else if AllDigits(s[..2]) && s[2] == sep && AllDigits(s[3..5]) && s[5] == sep && AllDigits(s[6..])
    then CheckDate(ParseNat(s[6..]), ParseNat(s[3..5]), ParseNat(s[..2]))
    else None
  }

  /** `dayjs(s, "DD-MM-YYYY").format("DD.MM.YYYY")`: re-punctuates a highlight date as an off-day date. */
  function DashToDot(s: string): string {
    match ParseDmy(s, '-')
    case Some(d) => FormatDmy(d, '.')
    case None => InvalidDate
  }

  lemma {:induction false} ParseDigits(n: nat)
    ensures ParseNat(Digits(n)) == n
  {
    if n >= 10 {
      var s := Digits(n);
      assert s[..|s| - 1] == Digits(n / 10);
      ParseDigits(n / 10);
    }
  }

  lemma {:induction false} ParseLeadingZero(s: string)
    requires AllDigits(s)
    ensures ParseNat(['0'] + s) == ParseNat(s)
  {
    if |s| > 0 {
      var t := ['0'] + s;
      assert t[..|t| - 1] == ['0'] + s[..|s| - 1];
      ParseLeadingZero(s[..|s| - 1]);
    } else {
      assert ParseNat(['0']) == ParseNat([]) * 10 + 0;
    }
  }

  lemma {:induction false} ParsePadZeros(s: string, width: nat)
    requires AllDigits(s)
    ensures ParseNat(PadZeros(s, width)) == ParseNat(s)
    decreases width - |s|
  {
    if |s| < width {
      ParsePadZeros(['0'] + s, width);
      ParseLeadingZero(s);
    }
  }

  lemma ParseTwoDigits(n: nat)
    requires n < 100
    ensures ParseNat(TwoDigits(n)) == n
  {
    var s := TwoDigits(n);
    assert s[..1][..0] == [];
    assert ParseNat(s[..1]) == n / 10;
  }

  lemma ParseYearDigits(y: nat)
    ensures ParseNat(YearDigits(y)) == y
  {
    ParsePadZeros(Digits(y), 4);
    ParseDigits(y);
  }

  /** Parsing a formatted `YYYY-MM-DD` date gives the date back. */
  lemma IsoRoundTrip(d: Date)
    requires ValidDate(d)
    ensures ParseIso(FormatIso(d)) == Some(d)
  {
    var y, m, dd := YearDigits(d.year), TwoDigits(d.month), TwoDigits(d.day);
    var s := FormatIso(d);
    var k := |s| - 6;
    assert k == |y|;
    assert s[..k] == y by { assert |y| == k; }
    assert s[k + 1..k + 3] == m by { assert |y| == k; }
    assert s[k + 4..] == dd by { assert |y| == k; }
    assert s[k] == '-' && s[k + 3] == '-';
    ParseYearDigits(d.year);
    ParseTwoDigits(d.month);
    ParseTwoDigits(d.day);
    ParseIsoPieces(s, y, m, dd);
  }

  /** `ParseIso` reads a text whose year, month and day fields are known. */
  lemma ParseIsoPieces(s: string, y: string, m: string, dd: string)
    requires |s| >= 10
    requires s[..|s| - 6] == y && s[|s| - 6] == '-' && s[|s| - 5..|s| - 3] == m
    requires s[|s| - 3] == '-' && s[|s| - 2..] == dd
    requires AllDigits(y) && AllDigits(m) && AllDigits(dd)
    ensures ParseIso(s) == CheckDate(ParseNat(y), ParseNat(m), ParseNat(dd))
  {
  }

  /** Parsing a formatted `DD<sep>MM<sep>YYYY` date gives the date back. */
  lemma DmyRoundTrip(d: Date, sep: char)
    requires ValidDate(d)
    ensures ParseDmy(FormatDmy(d, sep), sep) == Some(d)
  {
    var s := FormatDmy(d, sep);
    assert s[..2] == TwoDigits(d.day);
    assert s[3..5] == TwoDigits(d.month);
    assert s[6..] == YearDigits(d.year);
    ParseYearDigits(d.year);
    ParseTwoDigits(d.month);
    ParseTwoDigits(d.day);
  }

  /** The three layouts: `YYYY-MM-DD`, and `DD-MM-YYYY` / `DD.MM.YYYY` by separator. */
  datatype Layout = YearFirst | DayFirst(sep: char)

  function Format(d: Date, layout: Layout): string
    requires ValidDate(d)
  {
    match layout
    case YearFirst => FormatIso(d)
    case DayFirst(sep) => FormatDmy(d, sep)
  }

  function Parse(s: string, layout: Layout): (r: Option<Date>)
    ensures r.Some? ==> ValidDate(r.value)
  {
    match layout
    case YearFirst => ParseIso(s)
    case DayFirst(sep) => ParseDmy(s, sep)
  }

  lemma RoundTrip(d: Date, layout: Layout)
    requires ValidDate(d)
    ensures Parse(Format(d, layout), layout) == Some(d)
  {
    match layout
    case YearFirst => IsoRoundTrip(d);
    case DayFirst(sep) => DmyRoundTrip(d, sep);
  }

  /** Distinct dates have distinct texts in every layout, and no date's text reads "Invalid Date". */
  lemma FormatInjective(a: Date, b: Date, layout: Layout)
    requires ValidDate(a) && ValidDate(b)
    ensures Format(a, layout) == Format(b, layout) <==> a == b
    ensures Format(a, layout) != InvalidDate
  {
    RoundTrip(a, layout);
    RoundTrip(b, layout);
    assert !IsDigit(InvalidDate[0]);
    match layout
    case YearFirst =>
      assert FormatIso(a)[0] == YearDigits(a.year)[0];
    case DayFirst(sep) =>
      assert FormatDmy(a, sep)[0] == TwoDigits(a.day)[0];
  }

  /** Re-punctuating a `DD-MM-YYYY` date gives the same date as `DD.MM.YYYY`. */
  lemma DashToDotOfFormatted(d: Date)
    requires ValidDate(d)
    ensures DashToDot(FormatDmy(d, '-')) == FormatDmy(d, '.')
  {
    DmyRoundTrip(d, '-');
  }
}

=== FILE: profile.dfy ===
/**
 * The two pure helpers of the profile card: the initials shown in the avatar
 * and the avatar's background colour.
 */
module Profile {
  import opened Text

  /** `s.split(sep)`: the pieces between separators, empty pieces included; never an empty list. */
  function Split(s: string, sep: char): (words: seq<string>)
    ensures |words| >= 1
    ensures forall i :: 0 <= i < |words| ==> sep !in words[i]
  {
    if |s| == 0 then [""]
    else if s[0] == sep then [""] + Split(s[1..], sep)
    else
      var rest := Split(s[1..], sep);
      [[s[0]] + rest[0]] + rest[1..]
  }

  /** `words.join(sep)`. */
  function Join(words: seq<string>, sep: char): string
    requires |words| >= 1
  {
    if |words| == 1 then words[0] else words[0] + [sep] + Join(words[1..], sep)
  }

  /** `.map((n) => n[0]).join("")`: an empty word gives `undefined`, which joins as nothing. */
  function FirstChars(words: seq<string>): string {
    if |words| == 0 then ""
    else (if |words[0]| > 0 then [words[0][0]] else "") + FirstChars(words[1..])
  }

  /** `substring(0, n)`. */
  function Take(s: string, n: nat): (r: string)
    ensures |r| <= n && |r| <= |s|
    ensures r == s[..|r|]
    ensures |s| >= n ==> |r| == n
    ensures |s| < n ==> r == s
  {
    if |s| <= n then s else s[..n]
  }

  /** `getInitials`: first letters of the space-separated words, upper-cased, at most two. */
  function GetInitials(name: string): (r: string)
    ensures |r| <= 2
  {
    Take(Upper(FirstChars(Split(name, ' '))), 2)
  }

  /**
   * Reference definition of the letters getInitials collects: scanning the
   * name once, a character other than a space counts when it comes first
   * or right after a space.
   */
  function WordStarts(s: string, afterSpace: bool): (r: string)
    ensures ' ' !in r
  {
    if |s| == 0 then ""
    else if s[0] == ' ' then WordStarts(s[1..], true)
    else (if afterSpace then [s[0]] else "") + WordStarts(s[1..], false)
  }

  /** Joining the pieces of a split with the separator gives back the original string. */
  lemma {:induction false} SplitJoin(s: string, sep: char)
    ensures Join(Split(s, sep), sep) == s
  {
    if |s| > 0 {
      SplitJoin(s[1..], sep);
      var rest := Split(s[1..], sep);
      if s[0] == sep {
        assert Split(s, sep)[1..] == rest;
      } else {
        var words := Split(s, sep);
        assert words[1..] == rest[1..];
        if |rest| > 1 {
          assert Join(rest, sep) == rest[0] + [sep] + Join(rest[1..], sep);
        }
      }
    }
  }

  lemma {:induction false} FirstCharsAreWordStarts(s: string)
    ensures FirstChars(Split(s, ' ')) == WordStarts(s, true)
    decreases |s|, 1
  {
    if |s| > 0 {
      var rest := Split(s[1..], ' ');
      if s[0] == ' ' {
        assert Split(s, ' ')[1..] == rest;
        FirstCharsAreWordStarts(s[1..]);
      } else {
        var words := Split(s, ' ');
        assert words[1..] == rest[1..];
        LaterFirstCharsAreWordStarts(s[1..]);
      }
    }
  }

  lemma {:induction false} LaterFirstCharsAreWordStarts(s: string)
    ensures FirstChars(Split(s, ' ')[1..]) == WordStarts(s, false)
    decreases |s|, 0
  {
    if |s| > 0 {
      var rest := Split(s[1..], ' ');
      if s[0] == ' ' {
        assert Split(s, ' ')[1..] == rest;
        FirstCharsAreWordStarts(s[1..]);
      } else {
        var words := Split(s, ' ');
        assert words[1..] == rest[1..];
        LaterFirstCharsAreWordStarts(s[1..]);
      }
    }
  }

  /**
   * getInitials is the first two word-starting characters, upper-cased:
   * leading and repeated spaces contribute nothing.
   */
  lemma InitialsAreWordStarts(name: string)
    ensures GetInitials(name) == Take(Upper(WordStarts(name, true)), 2)
  {
    FirstCharsAreWordStarts(name);
  }

  const AvatarColors: seq<string> := [
    "#19979c", "#ff8847", "#5a32a8", "#32a852", "#c0c033",
    "#a832a4", "#327ba8", "#3244a8", "#c2068a", "#108f7c"
  ]

  /** `name.split("").reduce((acc, char) => acc + char.charCodeAt(0), 0)`. */
  function CodeSum(s: string): nat {
    if |s| == 0 then 0 else CodeSum(s[..|s| - 1]) + s[|s| - 1] as int
  }

  /** `getAvatarColor`: the palette entry at the character-code sum modulo the palette size. */
  function GetAvatarColor(name: string): (c: string)
    ensures c in AvatarColors
    ensures c == AvatarColors[CodeSum(name) % 10]
  {
    AvatarColors[CodeSum(name) % |AvatarColors|]
  }

  lemma {:induction false} CodeSumAppend(a: string, b: string)
    ensures CodeSum(a + b) == CodeSum(a) + CodeSum(b)
  {
    if |b| > 0 {
      assert (a + b)[..|a + b| - 1] == a + b[..|b| - 1];
      CodeSumAppend(a, b[..|b| - 1]);
    } else {
      assert a + b == a;
    }
  }

  /** Taking one character out of a name lowers its code sum by that character's code. */
  lemma CodeSumSplit(pre: string, c: char, post: string)
    ensures CodeSum(pre + [c] + post) == c as int + CodeSum(pre + post)
  {
    var head := pre + [c];
    assert CodeSum(head) == CodeSum(pre) + c as int by {
      assert head[..|head| - 1] == pre;
    }
    CodeSumAppend(head, post);
    CodeSumAppend(pre, post);
  }

  /** The code sum depends only on which characters occur how often, not on their order. */
  lemma {:induction false} CodeSumPermutation(s: string, t: string)
    requires multiset(s) == multiset(t)
    ensures CodeSum(s) == CodeSum(t)
    decreases |s|
  {
    if |s| > 0 {
      var n := |s|;
      var c := s[n - 1];
      assert s == s[..n - 1] + [c];
      assert c in multiset(t);
      var j :| 0 <= j < |t| && t[j] == c;
      var t' := t[..j] + t[j + 1..];
      assert t == t[..j] + [c] + t[j + 1..];
      assert multiset(t') == multiset(t) - multiset{c};
      assert multiset(s[..n - 1]) == multiset(s) - multiset{c};
      CodeSumPermutation(s[..n - 1], t');
      CodeSumSplit(t[..j], c, t[j + 1..]);
    } else {
      assert |multiset(t)| == 0;
    }
  }

  /** Anagrams, and in particular equal names, get the same avatar colour. */
  lemma AvatarColorPermutation(s: string, t: string)
    requires multiset(s) == multiset(t)
    ensures GetAvatarColor(s) == GetAvatarColor(t)
  {
    CodeSumPermutation(s, t);
  }
}

=== FILE: schedule_model.dfy ===
/**
 * The schedule record the calendar projects and the store holds.
 *
 * Date-valued fields are kept as the strings the record carries:
 * `scheduleStartDate`/`scheduleEndDate` and `shiftStart`/`shiftEnd` as ISO-8601
 * text, `offDays` and pair-range bounds as `DD.MM.YYYY`. A missing string field
 * is the empty string, a missing `isUpdated` is false, and missing `shifts` or
 * `staffs` are empty lists (every use of those treats absence as emptiness).
 * `assignments` stays optional, because the store's update branches on its
 * presence.
 */
module ScheduleModel {
  import opened Wrappers

  datatype Shift = Shift(id: string, name: string)

  /** A date interval during which the staff member is paired with `staffId`. */
  datatype PairRange = PairRange(staffId: string, startDate: string, endDate: string)

  datatype Staff = Staff(id: string, name: string, offDays: seq<string>, pairList: seq<PairRange>)

  datatype Assignment = Assignment(
    id: string,
    staffId: string,
    shiftId: string,
    shiftStart: string,
    shiftEnd: string,
    isUpdated: bool)

  datatype Schedule = Schedule(
    scheduleStartDate: string,
    scheduleEndDate: string,
    shifts: seq<Shift>,
    staffs: seq<Staff>,
    assignments: Option<seq<Assignment>>)

  /** `{}`: the schedule before anything has been fetched. */
  const EmptySchedule: Schedule := Schedule("", "", [], [], None)

  /** `schedule?.assignments || []`. */
  function AssignmentsOf(s: Schedule): seq<Assignment> {
    if s.assignments.Some? then s.assignments.value else []
  }
}

=== FILE: schedule_store.dfy ===
/**
 * The schedule slice of the application store: its state, the actions it
 * handles and the reducer that maps a state and an action to the next state.
 *
 * A drag of an event dispatches `UpdateEventDate`; its confirmation arrives as
 * `UpdateEventDateSuccess` (which patches the moved assignment) or
 * `UpdateEventDateFailed` (which only records the error, so the committed
 * schedule needs no rollback).
 */
module ScheduleStore {
  import opened Wrappers
  import opened ScheduleModel

  /** The store's error slot: a back-end error record, `{}` when there is none. */
  type Errors = map<string, string>

  datatype ScheduleState = ScheduleState(errors: Errors, loading: bool, schedule: Schedule)

  const InitialState: ScheduleState := ScheduleState(map[], false, EmptySchedule)

  datatype Action =
    | FetchScheduleSuccess(payload: Schedule)
    | FetchScheduleFailed(errors: Errors)
    | UpdateEventDate(eventId: string, newStart: string, newEnd: string)
    | UpdateEventDateSuccess(eventId: string, newStart: string, newEnd: string)
    | UpdateEventDateFailed(errors: Errors)
    /** Any action type the reducer has no handler for. */
    | OtherAction

  /** The assignment moved to a new time window and marked as updated. */
  function Moved(a: Assignment, newStart: string, newEnd: string): Assignment {
    a.(shiftStart := newStart, shiftEnd := newEnd, isUpdated := true)
  }

  /** The `assignments.map(...)` of the success handler. */
  function MoveAssignments(assignments: seq<Assignment>, eventId: string, newStart: string, newEnd: string)
    : (r: seq<Assignment>)
    ensures |r| == |assignments|
    ensures forall i :: 0 <= i < |r| ==>
              r[i] == if assignments[i].id == eventId then Moved(assignments[i], newStart, newEnd) else assignments[i]
  {
    if |assignments| == 0 then []
    else
      var a := assignments[0];
      [if a.id == eventId then Moved(a, newStart, newEnd) else a]
        + MoveAssignments(assignments[1..], eventId, newStart, newEnd)
  }

  /** The schedule after a confirmed move: a copy whose assignments, when present, are patched. */
  function MoveInSchedule(s: Schedule, eventId: string, newStart: string, newEnd: string): Schedule {
    if s.assignments.Some?
    then s.(assignments := Some(MoveAssignments(s.assignments.value, eventId, newStart, newEnd)))
    else s
  }

  /** `handleActions(scheduleReducer, initialState)`: an action without a handler leaves the state as it is. */
  function Reduce(state: ScheduleState, action: Action): (r: ScheduleState)
    ensures r.schedule != state.schedule ==> action.FetchScheduleSuccess? || action.UpdateEventDateSuccess?
    ensures r.loading <==> action.UpdateEventDate? || (action.OtherAction? && state.loading)
    ensures r.errors != state.errors ==> !action.OtherAction?
  {
    match action
    case FetchScheduleSuccess(payload) =>
      state.(loading := false, errors := map[], schedule := payload)
    case FetchScheduleFailed(errors) =>
      state.(loading := false, errors := errors)
    case UpdateEventDate(_, _, _) =>
      state.(loading := true, errors := map[])
    case UpdateEventDateSuccess(eventId, newStart, newEnd) =>
      state.(loading := false, errors := map[], schedule := MoveInSchedule(state.schedule, eventId, newStart, newEnd))
    case UpdateEventDateFailed(errors) =>
      state.(loading := false, errors := errors)
    case OtherAction =>
      state
  }

  /** The store starts idle, without errors and without any assignment. */
  lemma InitialStateIsIdle()
    ensures !InitialState.loading && InitialState.errors == map[]
    ensures AssignmentsOf(InitialState.schedule) == []
  {
  }

  /** An action the slice has no handler for leaves the state as it is. */
  lemma OtherActionKeepsState(state: ScheduleState)
    ensures Reduce(state, OtherAction) == state
  {
  }

  /** A successful fetch replaces the schedule and clears loading and errors. */
  lemma FetchSuccessReplacesSchedule(state: ScheduleState, payload: Schedule)
    ensures Reduce(state, FetchScheduleSuccess(payload)) == ScheduleState(map[], false, payload)
  {
  }

  /** A failed fetch records the error and keeps whatever schedule was there. */
  lemma FetchFailedKeepsSchedule(state: ScheduleState, errors: Errors)
    ensures Reduce(state, FetchScheduleFailed(errors)) == ScheduleState(errors, false, state.schedule)
  {
  }

  /** Requesting a move only raises the loading flag and clears errors; the schedule is untouched. */
  lemma UpdateRequestKeepsSchedule(state: ScheduleState, eventId: string, newStart: string, newEnd: string)
    ensures Reduce(state, UpdateEventDate(eventId, newStart, newEnd)) == ScheduleState(map[], true, state.schedule)
  {
  }

  /** A rejected move records the error and keeps the schedule: nothing has to be rolled back. */
  lemma UpdateFailedKeepsSchedule(state: ScheduleState, errors: Errors)
    ensures Reduce(state, UpdateEventDateFailed(errors)) == ScheduleState(errors, false, state.schedule)
  {
  }

  /**
   * A confirmed move patches exactly the assignments whose id is the event's:
   * new start, new end, `isUpdated` set, everything else of theirs kept; all
   * other assignments, their order and number, and the schedule's other fields
   * stay as they were; loading and errors are cleared.
   */
  lemma UpdateSuccessPatchesOnlyTheMovedAssignment(
    state: ScheduleState, eventId: string, newStart: string, newEnd: string)
    ensures var r := Reduce(state, UpdateEventDateSuccess(eventId, newStart, newEnd));
      && !r.loading && r.errors == map[]
      && r.schedule.scheduleStartDate == state.schedule.scheduleStartDate
      && r.schedule.scheduleEndDate == state.schedule.scheduleEndDate
      && r.schedule.shifts == state.schedule.shifts
      && r.schedule.staffs == state.schedule.staffs
      && r.schedule.assignments.Some? == state.schedule.assignments.Some?
      && (state.schedule.assignments.None? ==> r.schedule == state.schedule)
      && (state.schedule.assignments.Some? ==>
            var before, after := state.schedule.assignments.value, r.schedule.assignments.value;
            && |after| == |before|
            && forall i :: 0 <= i < |before| ==>
                 if before[i].id == eventId then
                   && after[i].shiftStart == newStart && after[i].shiftEnd == newEnd && after[i].isUpdated
                   && after[i].id == before[i].id && after[i].staffId == before[i].staffId
                   && after[i].shiftId == before[i].shiftId
                 else after[i] == before[i])
  {
  }

  /** Confirming the same move twice gives the same state as confirming it once. */
  lemma UpdateSuccessIdempotent(state: ScheduleState, eventId: string, newStart: string, newEnd: string)
    ensures var once := Reduce(state, UpdateEventDateSuccess(eventId, newStart, newEnd));
            Reduce(once, UpdateEventDateSuccess(eventId, newStart, newEnd)) == once
  {
    var once := Reduce(state, UpdateEventDateSuccess(eventId, newStart, newEnd));
    if state.schedule.assignments.Some? {
      var a1 := once.schedule.assignments.value;
      var a2 := MoveAssignments(a1, eventId, newStart, newEnd);
      assert a2 == a1;
    }
  }

  /**
   * Two confirmations for the same assignment: the one applied last decides
   * its window, whatever the first one said. Overlapping drags are not
   * serialised, so this is the outcome of their race.
   */
  lemma LastConfirmationWins(
    state: ScheduleState, eventId: string, start1: string, end1: string, start2: string, end2: string)
    ensures Reduce(Reduce(state, UpdateEventDateSuccess(eventId, start1, end1)),
                   UpdateEventDateSuccess(eventId, start2, end2))
         == Reduce(state, UpdateEventDateSuccess(eventId, start2, end2))
  {
    if state.schedule.assignments.Some? {
      var a0 := state.schedule.assignments.value;
      var a1 := MoveAssignments(a0, eventId, start1, end1);
      assert MoveAssignments(a1, eventId, start2, end2) == MoveAssignments(a0, eventId, start2, end2);
    }
  }

  /** A drag that is requested and then rejected leaves the committed schedule exactly as it was. */
  lemma RejectedDragLeavesSchedule(
    state: ScheduleState, eventId: string, newStart: string, newEnd: string, errors: Errors)
    ensures var pending := Reduce(state, UpdateEventDate(eventId, newStart, newEnd));
            Reduce(pending, UpdateEventDateFailed(errors)) == ScheduleState(errors, false, state.schedule)
  {
  }

  /** A drag that is requested and then confirmed commits the move and leaves the store idle without errors. */
  lemma ConfirmedDragCommits(state: ScheduleState, eventId: string, newStart: string, newEnd: string)
    ensures var pending := Reduce(state, UpdateEventDate(eventId, newStart, newEnd));
            Reduce(pending, UpdateEventDateSuccess(eventId, newStart, newEnd))
              == ScheduleState(map[], false, MoveInSchedule(state.schedule, eventId, newStart, newEnd))
  {
  }
}

=== FILE: text.dfy ===
/**
 * ASCII case mapping (`toUpperCase`, `toLowerCase` on ASCII letters; other
 * characters are left as they are) and substring search (`includes`).
 */
module Text {

  function UpperChar(c: char): (u: char)
    ensures 'a' <= c <= 'z' ==> 'A' <= u <= 'Z' && u as int == c as int - 32
    ensures !('a' <= c <= 'z') ==> u == c
  {
    if 'a' <= c <= 'z' then (c as int - 32) as char else c
  }

  function LowerChar(c: char): (l: char)
    ensures 'A' <= c <= 'Z' ==> 'a' <= l <= 'z' && l as int == c as int + 32
    ensures !('A' <= c <= 'Z') ==> l == c
  {
    if 'A' <= c <= 'Z' then (c as int + 32) as char else c
  }

  function Upper(s: string): (r: string)
    ensures |r| == |s| && forall i :: 0 <= i < |s| ==> r[i] == UpperChar(s[i])
  {
    if |s| == 0 then [] else [UpperChar(s[0])] + Upper(s[1..])
  }

  function Lower(s: string): (r: string)
    ensures |r| == |s| && forall i :: 0 <= i < |s| ==> r[i] == LowerChar(s[i])
  {
    if |s| == 0 then [] else [LowerChar(s[0])] + Lower(s[1..])
  }

  /** t occurs in s starting at position i. */
  predicate OccursAt(s: string, t: string, i: int) {
    0 <= i <= |s| - |t| && s[i..i + |t|] == t
  }

  /** `s.includes(t)`: t occurs in s as a contiguous piece. */
  predicate Contains(s: string, t: string) {
    exists i :: 0 <= i <= |s| - |t| && OccursAt(s, t, i)
  }

  /** Lower-casing forgets whether a letter was upper-cased first. */
  lemma LowerOfUpper(s: string)
    ensures Lower(Upper(s)) == Lower(s)
  {
    assert forall i :: 0 <= i < |s| ==> LowerChar(UpperChar(s[i])) == LowerChar(s[i]);
  }
}

=== FILE: wrappers.dfy ===
/** Optional values: JavaScript's `undefined` for a lookup that finds nothing. */
module Wrappers {

  datatype Option<+T> = None | Some(value: T)
}
